=== FILE: README.md ===
# Authentication core of a Gin/GORM API template, in Dafny

This project models the authentication path of a small Go web service and the
record stores beneath it:

- the bearer-header middleware, which splits the `Authorization` header into
  fields, checks for a "bearer" scheme in any letter case, and records the token;
- the verification middleware, which verifies the token, finds the login
  session by the token's id, finds the user by the session's user id, and
  attaches the payload and user to the request;
- the login-session store (create, find by id, find by token id, partial
  update, delete by token id);
- the auth service (registration with a password-confirmation guard; login by
  username and password issuing an access and a refresh token from one payload);
- the password-strength and e-mail validators;
- the user and to-do stores with their "empty string keeps the stored value"
  update rules.

Each database table is a `map<nat, Row>` plus the next value of its
auto-increment sequence. A `Valid` predicate per store says that keys are the
rows' ids and that the unique indexes hold, and every operation preserves it.
GORM's `First` is the matching row of smallest primary key (`Table.First`).
Every service call is one atomic step from store to store, including the reads that `UpdateTodo`, `DeleteTodo` and `UpdatePassword` make outside their transactions.

The cryptography and randomness the code calls are parameters:

- the PASETO token maker is a `Token.TokenMaker`, a pair of functions whose
  only assumed property is `Token.RoundTrips`: verifying a generated token
  gives back its payload;
- bcrypt is a `Hasher.PasswordHasher`, assumed `Hasher.Consistent`: a hash
  it produced is well formed and matches its password. `Hasher.Compare` is
  `CompareHashAndPassword`: stored text that is not a bcrypt hash gives
  `MalformedHash` (bcrypt's too-short, bad-prefix, bad-version and bad-cost
  errors), and a well-formed hash that does not fit the password gives
  `HashMismatch`. `Hasher.RejectsShortHashes` states bcrypt's minimum of 59 bytes of UTF-8 encoding;
- `uuid.New()` is the `freshTokenId` argument and `time.Now()` the `now` argument;
- Go's Unicode category tests used by the password rule are a
  `Validator.CharClasses` argument, with `Validator.Ascii()` as the ASCII instance.

Where the code departs from what its names and comments suggest, the model follows the code:

- `DeletedAt` on a login session is a plain `*time.Time`
  (internal/auth/model/login_session.go:24), not GORM's `gorm.DeletedAt`
  soft-delete type, so GORM's `Delete` removes the row;
- the payload struct names its id field `ID`, while the middleware reads
  `TokenID`; both are the one field `Token.TokenPayload.tokenId`;
- the password rule requires a punctuation or symbol rune, although its doc
  comment mentions only upper case, lower case and a number
  (`Validator.SpecialRuneRequired`);
- changing a password with a confirmation that differs from the new password
  returns success and changes nothing (`Users.UpdatePassword`).

## Model

| member | source | states |
|---|---|---|
| Bearer.GetBearerToken | pkg/middleware/auth.go:26-63 | an empty header is "not provided"; a non-empty one that does not split into exactly two fields is a format error; a scheme other than "bearer" after lower-casing is "unsupported"; otherwise the token is the second field; the first failing check decides |
| Bearer.Fields | pkg/middleware/auth.go:39 | every field produced by the whitespace split is non-empty and contains no whitespace |
| Bearer.FieldsEmpty | pkg/middleware/auth.go:39-40 | a header yields no fields exactly when it is all whitespace |
| Bearer.FieldsOfJoin | pkg/middleware/auth.go:39 | words joined by spaces split back into the same words |
| Bearer.FieldsOfSpaced | pkg/middleware/auth.go:39 | words separated by any non-empty whitespace runs, with any leading and trailing whitespace, split back into exactly those words |
| Bearer.IsSpace | pkg/middleware/auth.go:39 | the field separator is Go's `unicode.IsSpace`; below U+0100 it is exactly tab, line feed, vertical tab, form feed, carriage return, space, U+0085 and U+00A0 |
| Bearer.ToLower | pkg/middleware/auth.go:50 | the scheme is lower-cased rune by rune, keeping its length; ASCII capitals become small letters and every other rune is kept |
| Bearer.RefusalMessages | pkg/middleware/auth.go:29-47 | an empty header is refused with "authorization is not provided" and a lone "Bearer" with "invalid authorization header format" |
| Bearer.UnsupportedTypeMessage | pkg/middleware/auth.go:50-52 | two fields whose scheme is not "bearer" are refused with "unsupported authorization type " followed by the lower-cased scheme |
| Bearer.SchemeIgnoresCase | pkg/middleware/auth.go:50-51 | the scheme check accepts exactly the 64 upper/lower-case spellings of "bearer" |
| Bearer.BlankHeaderIsMalformed | pkg/middleware/auth.go:29-47 | a non-empty all-whitespace header fails with the format error, not "not provided" |
| Bearer.BearerRoundTrip | pkg/middleware/auth.go:39-62 | any spelling of the scheme, a whitespace gap, a whitespace-free token and surrounding whitespace give back exactly that token |
| Gate.VerifyTokenMiddleware | pkg/middleware/auth.go:66-125 | a token that fails verification is rejected with no store lookup; a missing session stops before the user lookup; a missing user is rejected as user-not-found after all three lookups; admission happens exactly when token, session and user all resolve, the user being the one with the session's user id; the lookups happen in order |
| Gate.Authorize | pkg/middleware/auth.go:26-125 | a refused header consults no collaborator; an accepted header hands its token to the verification middleware, whose outcome and lookups are the result; an admitted request carries the header's token |
| Table.First | internal/auth/service/login_session.go:57 | GORM's `First`: the matching row of smallest primary key, or none exactly when no row matches |
| Gate.AuthorizeAdmits | pkg/middleware/auth.go:61-124 | a "Bearer <token>" header whose token, session and user resolve is admitted with that payload and user |
| Gate.UserComesFromSession | pkg/middleware/auth.go:82-102 | two tokens with the same token id are admitted as the same user whatever user id their payloads carry |
| Sessions.Create | internal/auth/service/login_session.go:61-74 | the new row holds exactly the given token id, user id, agent, IP, tokens and expiries under a fresh id; a token id already stored is refused and nothing changes |
| Sessions.FindById | internal/auth/service/login_session.go:49-53 | returns the row with that id, or not-found exactly when there is none |
| Sessions.FindByTokenID | internal/auth/service/login_session.go:55-59 | returns a stored row with that token id, or not-found exactly when none has it |
| Sessions.UpdateSession | internal/auth/service/login_session.go:76-102 | an unknown id is not-found and nothing changes; otherwise exactly the supplied fields and the update time (set to the call's time) are overwritten, while token id, user id, agent, IP and creation time are kept, and no other row changes |
| Sessions.DeleteByTokenID | internal/auth/service/login_session.go:104-108 | never an error; afterwards no row has the token id, and every row with another token id is kept unchanged |
| Sessions.CreateThenFind | internal/auth/service/login_session.go:55-74 | a created session is found by its token id and by its id |
| Sessions.UpdateIdempotent | internal/auth/service/login_session.go:84-98 | applying the same partial update twice gives the same row as once |
| Sessions.DeleteThenFind | internal/auth/service/login_session.go:104-108 | after deletion the token id is not found, and lookups of other token ids are unchanged |
| Sessions.DeleteIdempotent | internal/auth/service/login_session.go:104-108 | deleting the same token id twice equals deleting it once |
| Auth.LoginByUsernamePassword | internal/auth/service/auth.go:46-76 | an unknown username gives the lookup's not-found; a stored hash that is malformed or does not fit the password gives the comparison's error; once the user is found and the password fits, the only possible error is a token-generation failure; on success both tokens are generated from one payload holding the fresh token id and the decimal user id, with the lifetimes the result reports |
| Auth.LoginFailsOnlyForReason | internal/auth/service/auth.go:46-65 | a login fails only for an unknown user, a stored hash that is malformed or does not fit the password, or a token that could not be generated |
| Hasher.Compare | internal/auth/service/auth.go:52-55 | `CompareHashAndPassword`: success exactly when the stored text is a well-formed hash that fits the password; a malformed hash gives the format error before any comparison, and a well-formed hash that does not fit gives the mismatch error |
| Hasher.ShortHashMeasuredInBytes | internal/auth/service/auth.go:52 | bcrypt's length minimum counts UTF-8 bytes: twenty three-byte runes are fewer than 59 runes yet reach 59 bytes |
| Auth.LoginTokensSharePayload | internal/auth/service/auth.go:57-62 | both tokens of a login verify to the same payload, whose user id reads back as the user's id |
| Auth.HoursToDuration | internal/auth/service/auth.go:71-72 | a lifetime in hours becomes an int64 nanosecond duration congruent to hours times one hour modulo 2^64, i.e. the product with two's-complement wrap-around |
| Auth.DurationExact | internal/auth/service/auth.go:71-72 | up to 2562047 hours either way the duration is exactly hours times one hour |
| Auth.DurationOverflows | internal/auth/service/auth.go:71-72 | 2562048 hours wraps around to a negative duration |
| Auth.RegisterUser | internal/auth/service/auth.go:78-89 | a differing confirmation is refused before any user is created; otherwise the result is exactly the user store's create result |
| Auth.RegisterThenLogin | internal/auth/service/auth.go:83-88 | after a registration, logging in with the same username and password fails at most for token generation |
| Token.Decimal | internal/auth/service/auth.go:57 | the user id is printed as a non-empty string of decimal digits without a leading zero |
| Token.DecimalRoundTrip | internal/auth/service/auth.go:57 | the printed id reads back as the id |
| Token.DecimalInjective | internal/auth/service/auth.go:57 | distinct user ids print differently |
| Validator.IsValidPassword | pkg/util/validator.go:18-38 | true exactly for passwords of at least eight runes having a number, an upper-case, a lower-case and a punctuation-or-symbol rune; false below eight runes |
| Validator.ClassifyFirstMatch | pkg/util/validator.go:24-35 | each rune counts for the first class that matches, in the order number, upper, lower, special |
| Validator.StrongPasswordExtends | pkg/util/validator.go:19-37 | appending runes to a valid password keeps it valid |
| Validator.LengthCountsRunes | pkg/util/validator.go:19-21 | a six-rune password is refused although its UTF-8 encoding has nine bytes |
| Validator.SpecialRuneRequired | pkg/util/validator.go:15-37 | "Password1" is refused for lack of a special rune; "Passw0rd!" is accepted |
| Validator.EmailComplete | pkg/util/validator.go:10-13 | every address made of a valid local part, one "@" and dot-separated labels of 1 to 63 alphanumerics or hyphens with alphanumeric ends is accepted |
| Validator.IsValidEmail | pkg/util/validator.go:10-13 | every accepted address is made of a valid local part, one "@" and valid dot-separated labels, and contains exactly one "@" (the converse is Validator.EmailComplete) |
| Validator.DotlessDomainAccepted | pkg/util/validator.go:11 | "a@localhost" is accepted |
| Validator.EmptyLabelRefused | pkg/util/validator.go:11 | "a@b..c" is refused |
| Users.Insert | internal/user/service/user.go:44-46 | an insert takes the next id and the current time, or is refused when the username or e-mail is already stored |
| Users.CreateUser | internal/user/service/user.go:31-52 | a hash failure is an error; otherwise the new user has the given username, e-mail and name and the oracle's hash of the password under a fresh id, unless a unique index refuses it |
| Users.GetUserById | internal/user/service/user.go:54-61 | returns the user with that id, or not-found exactly when there is none |
| Users.GetUserByUsername | internal/user/service/user.go:63-70 | returns a stored user with that username, or not-found exactly when none has it |
| Users.GetUserByEmail | internal/user/service/user.go:72-79 | returns a stored user with that e-mail, or not-found exactly when none has it |
| Users.ListUser | internal/user/service/user.go:81-88 | lists every stored user once, nothing else, in increasing id order |
| Users.UpdateUser | internal/user/service/user.go:90-108 | a missing id is not-found; a stored id fails exactly when the resulting e-mail belongs to another user, and otherwise succeeds; the update time becomes the call's time; an empty name or e-mail keeps the stored value and any other replaces it; username and hash never change; other users are untouched |
| Users.UpdateUserAsWritten | internal/user/service/user.go:90-108 | on a stored id it behaves as the corrected update; on a missing id it fails exactly when a user with an empty username or with the given e-mail is stored, and otherwise inserts a new user with an empty username and hash and the given name and e-mail under the next id |
| Users.UpdateMissingUserInserts | internal/user/service/user.go:93-105 | updating id 7 on an empty table succeeds and creates user 1 instead of failing |
| Users.UpdatePassword | internal/user/service/user.go:110-135 | differing new and confirmation passwords give success with no change; then a missing user is not-found, a malformed stored hash or a wrong current password is the comparison's error; with a fitting password the change succeeds exactly when hashing the new password succeeds, and otherwise fails with the hash error; success changes only the stored hash, to the oracle's hash of the new password, and the update time |
| Users.DeleteUser | internal/user/service/user.go:137-144 | never an error; removes exactly that id and keeps every other user |
| Users.CreateThenGet | internal/user/service/user.go:31-70 | a created user is found by id, by username and by e-mail |
| Users.DeleteThenGet | internal/user/service/user.go:137-144 | after deleting an id it is not found |
| Users.UpdatePasswordThenMatches | internal/user/service/user.go:121-133 | after a successful change the stored hash accepts the new password |
| Todos.CreateTodo | internal/todo/service/todo.go:29-46 | the new item holds the given name and description under a fresh id, and no other item changes |
| Todos.GetById | internal/todo/service/todo.go:49-53 | returns the item with that id, or not-found exactly when there is none, including for negative ids |
| Todos.UpdateTodo | internal/todo/service/todo.go:56-82 | a missing id is not-found and nothing changes; an empty name or description keeps the stored value and any other replaces it; the update time becomes the call's time; other items are untouched |
| Todos.ListTodo | internal/todo/service/todo.go:85-91 | lists every stored item once, nothing else, in increasing id order |
| Todos.DeleteTodo | internal/todo/service/todo.go:94-113 | a missing id is not-found and nothing changes; otherwise exactly that item is removed |
| Todos.CreateThenGet | internal/todo/service/todo.go:29-53 | a created item is found by its id |
| Todos.DeleteThenGet | internal/todo/service/todo.go:94-112 | after a delete the id is not found and every other id is found as before |
| Todos.UpdateIdempotent | internal/todo/service/todo.go:64-71 | applying the same update twice gives the same item as once |
| Flows.SessionArgs | internal/auth/handler/auth.go:93-103 | the stored session is keyed by the login payload's token id, belongs to the logged-in user, holds both issued tokens, and expires each token one lifetime after the login time |
| Flows.LoginThenAuthorize | internal/auth/handler/auth.go:93-103 | once a login's session is stored as the login handler stores it, "Bearer <access token>" is admitted with the login's payload and user |
| Flows.LogoutThenRejected | internal/auth/handler/auth.go:233-237 | once the session of a token's id is deleted, that token is rejected as having no login session |
| Flows.ExpiriesOrdered | internal/auth/handler/auth.go:93-103 | with 0 ≤ access hours ≤ refresh hours ≤ 2562047, the stored access expiry is no earlier than the login time and no later than the refresh expiry |
| Flows.ExpiryOrderOverflow | internal/auth/handler/auth.go:93-103 | with a 1-hour access lifetime and a 2562048-hour refresh lifetime, the stored refresh expiry falls before the login time and before the access expiry |
| Flows.PlaceholderUserCannotLogin | internal/auth/service/auth.go:46-55 | the user row that updating a missing id inserts, with empty username and hash, can never log in: the login fails on the malformed hash |

## Left out

- PASETO v4.local encryption, JSON claims and the library's expiry checks: the token maker is the `Token.TokenMaker` parameter, assumed to satisfy `Token.RoundTrips`.
- Token lifetime inside the maker: pkg/util/token/token_maker.go hard-codes 30 seconds and takes no lifetime argument, while the login passes one. The model follows the login's call, with the lifetime as an argument, and a maker that may fail.
- bcrypt: the `Hasher.PasswordHasher` parameter; its cost factor and 72-byte limit show up only as a possible hash failure.
- `uuid.New()` and `time.Now()`: arguments (`freshTokenId`, `now`); times are integers.
- HTTP handlers, cookies, JSON binding, status-code mapping, routing, server wiring, configuration loading, logging and database connection set-up: framework plumbing around the core.
- The refresh-token flow: its handler calls a service method that does not exist in the repository.
- Database failures other than unique-index violations (lost connections, failed transactions): every call is one atomic step that fails only as shown.
- Read-then-write windows: `UpdateTodo` and `DeleteTodo` look the row up with `First` outside their transactions (internal/todo/service/todo.go:59, :97), and `UpdatePassword` reads before its transaction (internal/user/service/user.go:116). The model treats each call as atomic, so a concurrent change between the read and the write is not represented.
- Flows.SessionArgs: the login handler as written passes nine positional arguments to `Create`, whose declaration takes one `CreateLoginSessionArgs` struct (internal/auth/handler/auth.go:93-103 against internal/auth/service/login_session.go:31, 61). It also reads `time.Now()` separately for each expiry. The model follows the evidently intended struct call, with one instant `now` for both expiries.
- Users.Insert: the username, e-mail and name columns are `size:255` (internal/user/model/user.go:7-9), so PostgreSQL refuses longer values; the model has no length limit, and `Users.CreateUser` and `Users.UpdateUser` fail only on the unique indexes.
- The foreign key from a session's user id to the users table: sessions and users are separate stores, so deleting a user neither fails nor cascades.
- Bearer.ToLower: lower-cases ASCII letters only. No non-ASCII rune lower-cases to a letter of "bearer", so acceptance is unaffected; only the text of the "unsupported authorization type" message can differ for non-ASCII schemes.
- Validator.IsValidPassword: Go's Unicode category tables are an argument, not written out; Go strings holding invalid UTF-8 (read as U+FFFD) have no counterpart, since Dafny strings are sequences of Unicode scalar values.
- Users.ListUser: the SQL query has no ORDER BY, so the database may return rows in any order; the model lists them by increasing id. Its database-error return is not modelled.
- Users.Insert: a refused insert leaves the id sequence where it was. PostgreSQL draws the id from its sequence before the unique index refuses the row, so after a refusal the source's later ids are one higher than the model's. No property here depends on ids being dense.
- Sessions.Create: a refused insert leaves the id sequence where it was, while PostgreSQL's sequence advances; later ids may differ from the source's by the gaps.
- Hasher.Compare: which stored texts bcrypt accepts as well formed (prefix, version, cost, 59-byte minimum) is the oracle's `wellFormed`; the model does not parse the hash format.
- Todos.ListTodo: returns rows in increasing id order; the source leaves the order to the database.
- The `User` association embedded in a login session row, and GORM's handling of it on create: not modelled.
- The middleware's `ctx.Next()` and context writes: these are the `Gate.AuthContext` in an `Admitted` outcome.

## Findings

| source | as written | input that shows it | evidently intended | confidence | as-written member | corrected member |
|---|---|---|---|---|---|---|
| internal/user/service/user.go:93-105 | `Find` on a missing id returns no error and leaves the zero-valued user; `Save` of a row with a zero primary key inserts it, so the update creates a new user with an empty username and password hash | `UpdateUser(id = 7, name = "Ann", email = "ann@example.com")` on an empty users table | report record-not-found and store nothing, as the other services' `First` lookups do | not executed; relies on GORM's `Save` inserting rows whose primary key is zero | Users.UpdateUserAsWritten (exhibited by Users.UpdateMissingUserInserts) | Users.UpdateUser |

=== FILE: auth.dfy ===
/**
 The authentication service: registration (a confirmation guard in front of
 user creation) and login by username and password (user lookup, password
 check, one payload, two tokens with hour-based lifetimes).
 */
module Auth {
  import opened Common
  import Users
  import Hasher
  import Token

  /** time.Hour, in nanoseconds. */
  const Hour: int := 3_600_000_000_000

  const Int64Min: int := -0x8000_0000_0000_0000
  const Int64Max: int := 0x7FFF_FFFF_FFFF_FFFF

  /** Two's-complement wrap-around of an int64 result. */
  function Wrap64(x: int): (r: int)
    ensures Int64Min <= r <= Int64Max
    ensures (r - x) % 0x1_0000_0000_0000_0000 == 0
    ensures Int64Min <= x <= Int64Max ==> r == x
  {
    (x - Int64Min) % 0x1_0000_0000_0000_0000 + Int64Min
  }

  /** time.Duration(hours) * time.Hour: an int64 product, so it wraps beyond about 292 years. */
  function HoursToDuration(hours: int): (d: int)
    ensures Int64Min <= d <= Int64Max
    ensures (d - hours * Hour) % 0x1_0000_0000_0000_0000 == 0
  {
    var h := Wrap64(hours);
    var d := Wrap64(h * Hour);
    WrapProduct(hours, h);
    CongruentTrans(d, h * Hour, hours * Hour);
    d
  }

  /** Wrapping the factor first does not change the product modulo 2^64. */
  lemma WrapProduct(hours: int, h: int)
    requires (h - hours) % 0x1_0000_0000_0000_0000 == 0
    ensures (h * Hour - hours * Hour) % 0x1_0000_0000_0000_0000 == 0
  {
  }

  lemma CongruentTrans(x: int, y: int, z: int)
    requires (x - y) % 0x1_0000_0000_0000_0000 == 0
    requires (y - z) % 0x1_0000_0000_0000_0000 == 0
    ensures (x - z) % 0x1_0000_0000_0000_0000 == 0
  {
  }

  /** Up to 2562047 hours the duration is exact. */
  lemma DurationExact(hours: int)
    requires -2562047 <= hours <= 2562047
    ensures HoursToDuration(hours) == hours * Hour
  {
  }

  /** One hour more and the product overflows to a negative duration. */
  lemma DurationOverflows()
    ensures HoursToDuration(2562048) < 0
  {
  }

  /** The token lifetimes from configuration. */
  datatype LoginConfig = LoginConfig(accessTokenExpiryInHours: int, refreshTokenExpiryInHours: int)

  /** What a successful login hands back besides the user. */
  datatype LoginData = LoginData(
    payload: Token.TokenPayload,
    accessToken: string,
    refreshToken: string,
    accessTokenExpiresIn: int,
    refreshTokenExpiresIn: int)

  /**
   Login by username and password. `freshTokenId` is the UUID the payload
   constructor draws; one payload is shared by both tokens.
   */
  function LoginByUsernamePassword(users: Users.UserDb, h: Hasher.PasswordHasher, maker: Token.TokenMaker,
                                   cfg: LoginConfig, username: string, password: string,
                                   freshTokenId: nat): (r: Result<(Users.User, LoginData)>)
    requires Users.Valid(users)
    ensures !Users.UsernameTaken(users, username) ==> r == Err(RecordNotFound)
    ensures Users.UsernameTaken(users, username) &&
            Hasher.Compare(h, Users.GetUserByUsername(users, username).value.hashedPassword, password).Some?
            ==> r == Err(Hasher.Compare(h, Users.GetUserByUsername(users, username).value.hashedPassword, password).value)
    ensures Users.UsernameTaken(users, username) &&
            Hasher.Compare(h, Users.GetUserByUsername(users, username).value.hashedPassword, password).None?
            ==> (r.Err? <==> r == Err(TokenFailure))
    ensures r.Err? ==> r.error in {RecordNotFound, MalformedHash, HashMismatch, TokenFailure}
    ensures r.Ok? ==> var (u, data) := r.value;
      && Users.GetUserByUsername(users, username) == Ok(u)
      && Hasher.Compare(h, u.hashedPassword, password) == None
      && data.payload == Token.TokenPayload(freshTokenId, Token.Decimal(u.id))
      && data.accessTokenExpiresIn == HoursToDuration(cfg.accessTokenExpiryInHours)
      && data.refreshTokenExpiresIn == HoursToDuration(cfg.refreshTokenExpiryInHours)
      && maker.generate(data.payload, data.accessTokenExpiresIn) == Some(data.accessToken)
      && maker.generate(data.payload, data.refreshTokenExpiresIn) == Some(data.refreshToken)
  {
    match Users.GetUserByUsername(users, username)
    case Err(e) => Err(e)
    case Ok(u) =>
      match Hasher.Compare(h, u.hashedPassword, password)
      case Some(e) => Err(e)
      case None =>
        var payload := Token.TokenPayload(freshTokenId, Token.Decimal(u.id));
        var accessTtl := HoursToDuration(cfg.accessTokenExpiryInHours);
        var refreshTtl := HoursToDuration(cfg.refreshTokenExpiryInHours);
        match maker.generate(payload, accessTtl)
        case None => Err(TokenFailure)
        case Some(accessToken) =>
          match maker.generate(payload, refreshTtl)
          case None => Err(TokenFailure)
          case Some(refreshToken) =>
            Ok((u, LoginData(payload, accessToken, refreshToken, accessTtl, refreshTtl)))
  }

  /** A known user with the right password fails only if a token cannot be generated. */
  lemma LoginFailsOnlyForReason(users: Users.UserDb, h: Hasher.PasswordHasher, maker: Token.TokenMaker,
                                cfg: LoginConfig, username: string, password: string, freshTokenId: nat)
    requires Users.Valid(users)
    requires LoginByUsernamePassword(users, h, maker, cfg, username, password, freshTokenId).Err?
    ensures var lookup := Users.GetUserByUsername(users, username);
      || lookup.Err?
      || Hasher.Compare(h, lookup.value.hashedPassword, password).Some?
      || maker.generate(Token.TokenPayload(freshTokenId, Token.Decimal(lookup.value.id)),
                        HoursToDuration(cfg.accessTokenExpiryInHours)).None?
      || maker.generate(Token.TokenPayload(freshTokenId, Token.Decimal(lookup.value.id)),
                        HoursToDuration(cfg.refreshTokenExpiryInHours)).None?
  {
  }

  /** Both tokens of a login verify to the same payload, so they carry the same token id and user id. */
  lemma LoginTokensSharePayload(users: Users.UserDb, h: Hasher.PasswordHasher, maker: Token.TokenMaker,
                                cfg: LoginConfig, username: string, password: string, freshTokenId: nat)
    requires Users.Valid(users) && Token.RoundTrips(maker)
    requires LoginByUsernamePassword(users, h, maker, cfg, username, password, freshTokenId).Ok?
    ensures var (u, data) := LoginByUsernamePassword(users, h, maker, cfg, username, password, freshTokenId).value;
      && maker.verify(data.accessToken) == Some(data.payload)
      && maker.verify(data.refreshToken) == Some(data.payload)
      && data.payload.tokenId == freshTokenId
      && Token.ValueOf(data.payload.userId) == u.id
  {
    var (u, data) := LoginByUsernamePassword(users, h, maker, cfg, username, password, freshTokenId).value;
    assert maker.generate(data.payload, data.accessTokenExpiresIn).Some?;
    assert maker.generate(data.payload, data.refreshTokenExpiresIn).Some?;
    Token.DecimalRoundTrip(u.id);
  }

  /** Registration: refuse a differing confirmation, otherwise create the user. */
  function RegisterUser(users: Users.UserDb, h: Hasher.PasswordHasher, username: string, email: string,
                        name: string, password: string, confirmPassword: string,
                        now: int): (r: Result<(Users.UserDb, Users.User)>)
    requires Users.Valid(users)
    ensures password != confirmPassword ==> r == Err(PasswordConfirmMismatch)
    ensures password == confirmPassword ==> r == Users.CreateUser(users, h, username, email, name, password, now)
    ensures r.Ok? ==> Users.Valid(r.value.0) && r.value.1.username == username
  {
    if password != confirmPassword then Err(PasswordConfirmMismatch)
    else Users.CreateUser(users, h, username, email, name, password, now)
  }

  /** A user who just registered passes the login's credential checks with the same password. */
  lemma RegisterThenLogin(users: Users.UserDb, h: Hasher.PasswordHasher, maker: Token.TokenMaker, cfg: LoginConfig,
                          username: string, email: string, name: string, password: string, now: int,
                          freshTokenId: nat)
    requires Users.Valid(users) && Hasher.Consistent(h)
    requires RegisterUser(users, h, username, email, name, password, password, now).Ok?
    ensures var (users', u) := RegisterUser(users, h, username, email, name, password, password, now).value;
      var r := LoginByUsernamePassword(users', h, maker, cfg, username, password, freshTokenId);
      r.Ok? || r == Err(TokenFailure)
  {
    var (users', u) := RegisterUser(users, h, username, email, name, password, password, now).value;
    Users.CreateThenGet(users, h, username, email, name, password, now);
  }
}

=== FILE: bearer.dfy ===
/**
 The bearer-header step of the authorization middleware: the `Authorization`
 header is split into whitespace-separated fields (Go's strings.Fields), which
 must be exactly a scheme and a token, and the scheme must read "bearer" in
 any letter case.
 */
module Bearer {
  import Text

  const Scheme: string := "bearer"

  /** Go's unicode.IsSpace: the ASCII and Latin-1 spaces plus the White_Space property. */
  function IsSpace(c: char): (r: bool)
    ensures c as int < 0x100 ==>
      (r <==> c in {'\t', '\n', '\U{000B}', '\U{000C}', '\r', ' ', '\U{0085}', '\U{00A0}'})
  {
    var n := c as int;
    || 0x09 <= n <= 0x0D || n == 0x20 || n == 0x85 || n == 0xA0
    || n == 0x1680 || 0x2000 <= n <= 0x200A
    || n == 0x2028 || n == 0x2029 || n == 0x202F || n == 0x205F || n == 0x3000
  }

  predicate AllSpace(s: string)
  {
    forall i :: 0 <= i < |s| ==> IsSpace(s[i])
  }

  /** A field: non-empty and free of whitespace. */
  predicate IsWord(w: string)
  {
    |w| > 0 && forall i :: 0 <= i < |w| ==> !IsSpace(w[i])
  }

  /** Length of the longest whitespace-free prefix of `s`. */
  function WordLength(s: string): (n: nat)
    ensures n <= |s|
    ensures forall i :: 0 <= i < n ==> !IsSpace(s[i])
    ensures n < |s| ==> IsSpace(s[n])
  {
    if |s| == 0 || IsSpace(s[0]) then 0 else 1 + WordLength(s[1..])
  }

  /** The maximal runs of non-whitespace of `s`, in order (Go's strings.Fields). */
  function Fields(s: string): (r: seq<string>)
    ensures forall i :: 0 <= i < |r| ==> IsWord(r[i])
    decreases |s|
  {
    if |s| == 0 then []
    else if IsSpace(s[0]) then Fields(s[1..])
    else
      var n := WordLength(s);
      [s[..n]] + Fields(s[n..])
  }

  /** A string has no fields exactly when it is all whitespace. */
  lemma {:induction false} FieldsEmpty(s: string)
    ensures Fields(s) == [] <==> AllSpace(s)
    decreases |s|
  {
    if |s| > 0 && IsSpace(s[0]) {
      FieldsEmpty(s[1..]);
      if AllSpace(s[1..]) {
        forall i | 0 <= i < |s|
          ensures IsSpace(s[i])
        {
          if i > 0 { assert s[i] == s[1..][i - 1]; }
        }
      }
    }
  }

  /** Leading whitespace contributes no field. */
  lemma {:induction false} FieldsSkipSpace(sp: string, s: string)
    requires AllSpace(sp)
    ensures Fields(sp + s) == Fields(s)
    decreases |sp|
  {
    if |sp| > 0 {
      assert (sp + s)[1..] == sp[1..] + s;
      FieldsSkipSpace(sp[1..], s);
    } else {
      assert sp + s == s;
    }
  }

  /** A word followed by the end of the string or by whitespace is one field. */
  lemma {:induction false} FieldsTakeWord(w: string, s: string)
    requires IsWord(w)
    requires |s| == 0 || IsSpace(s[0])
    ensures Fields(w + s) == [w] + Fields(s)
  {
    WordLengthOf(w, s);
    assert (w + s)[..|w|] == w;
    assert (w + s)[|w|..] == s;
  }

  lemma {:induction false} WordLengthOf(w: string, s: string)
    requires forall i :: 0 <= i < |w| ==> !IsSpace(w[i])
    requires |s| == 0 || IsSpace(s[0])
    ensures WordLength(w + s) == |w|
    decreases |w|
  {
    if |w| == 0 {
      assert w + s == s;
    } else {
      assert (w + s)[1..] == w[1..] + s;
      WordLengthOf(w[1..], s);
    }
  }

  /** Words joined by single spaces split back into the same words. */
  lemma {:induction false} FieldsOfJoin(ws: seq<string>)
    requires |ws| >= 1
    requires forall i :: 0 <= i < |ws| ==> IsWord(ws[i])
    ensures Fields(Text.Join(ws, ' ')) == ws
    decreases |ws|
  {
    if |ws| == 1 {
      FieldsTakeWord(ws[0], "");
      assert ws[0] + "" == ws[0];
    } else {
      var rest := Text.Join(ws[1..], ' ');
      FieldsOfJoin(ws[1..]);
      FieldsSkipSpace(" ", rest);
      assert ws[0] + [' '] + rest == ws[0] + (" " + rest);
      FieldsTakeWord(ws[0], " " + rest);
      assert ws == [ws[0]] + ws[1..];
    }
  }

  /** Words with whitespace runs between them, in order; `gaps[i]` sits between `ws[i]` and `ws[i + 1]`. */
  function Spaced(ws: seq<string>, gaps: seq<string>): string
    requires |ws| >= 1 && |gaps| == |ws| - 1
    decreases |ws|
  {
    if |ws| == 1 then ws[0] else ws[0] + gaps[0] + Spaced(ws[1..], gaps[1..])
  }

  lemma {:induction false} FieldsSpacedTrail(ws: seq<string>, gaps: seq<string>, trail: string)
    requires |ws| >= 1 && |gaps| == |ws| - 1
    requires forall i :: 0 <= i < |ws| ==> IsWord(ws[i])
    requires forall i :: 0 <= i < |gaps| ==> |gaps[i]| > 0 && AllSpace(gaps[i])
    requires AllSpace(trail)
    ensures Fields(Spaced(ws, gaps) + trail) == ws
    decreases |ws|
  {
    if |ws| == 1 {
      FieldsTakeWord(ws[0], trail);
      FieldsEmpty(trail);
    } else {
      var rest := Spaced(ws[1..], gaps[1..]) + trail;
      FieldsSpacedTrail(ws[1..], gaps[1..], trail);
      assert Spaced(ws, gaps) + trail == ws[0] + (gaps[0] + rest);
      assert (gaps[0] + rest)[0] == gaps[0][0];
      FieldsTakeWord(ws[0], gaps[0] + rest);
      FieldsSkipSpace(gaps[0], rest);
      assert ws == [ws[0]] + ws[1..];
    }
  }

  /**
   strings.Fields gives back exactly the words, whatever non-empty whitespace
   runs separate them and whatever whitespace leads or trails.
   */
  lemma {:induction false} FieldsOfSpaced(lead: string, ws: seq<string>, gaps: seq<string>, trail: string)
    requires |ws| >= 1 && |gaps| == |ws| - 1
    requires forall i :: 0 <= i < |ws| ==> IsWord(ws[i])
    requires forall i :: 0 <= i < |gaps| ==> |gaps[i]| > 0 && AllSpace(gaps[i])
    requires AllSpace(lead) && AllSpace(trail)
    ensures Fields(lead + Spaced(ws, gaps) + trail) == ws
  {
    assert lead + Spaced(ws, gaps) + trail == lead + (Spaced(ws, gaps) + trail);
    FieldsSkipSpace(lead, Spaced(ws, gaps) + trail);
    FieldsSpacedTrail(ws, gaps, trail);
  }

  /** strings.ToLower on ASCII letters; every other rune is left as is. */
  function ToLower(s: string): (r: string)
    ensures |r| == |s|
    ensures forall i :: 0 <= i < |s| ==> r[i] == LowerChar(s[i])
  {
    if |s| == 0 then [] else [LowerChar(s[0])] + ToLower(s[1..])
  }

  function LowerChar(c: char): char
  {
    if 'A' <= c <= 'Z' then (c as int + 32) as char else c
  }

  function UpperChar(c: char): char
  {
    if 'a' <= c <= 'z' then (c as int - 32) as char else c
  }

  /** The runes that lower-case to a given lower-case letter are that letter and its capital. */
  lemma LowerCharInverse(c: char, l: char)
    requires 'a' <= l <= 'z'
    ensures LowerChar(c) == l <==> c == l || c == UpperChar(l)
  {
  }

  /** The scheme field matches exactly the upper/lower-case spellings of "bearer". */
  lemma SchemeIgnoresCase(f: string)
    ensures ToLower(f) == Scheme <==>
      |f| == |Scheme| && forall i :: 0 <= i < |f| ==> f[i] == Scheme[i] || f[i] == UpperChar(Scheme[i])
  {
    var lower := ToLower(f);
    if |f| == |Scheme| {
      forall i | 0 <= i < |f|
        ensures lower[i] == Scheme[i] <==> f[i] == Scheme[i] || f[i] == UpperChar(Scheme[i])
      {
        LowerCharInverse(f[i], Scheme[i]);
      }
      if forall i :: 0 <= i < |f| ==> lower[i] == Scheme[i] {
        assert lower == Scheme;
      }
    }
  }

  /** Why a header was refused. */
  datatype HeaderError = NotProvided | InvalidFormat | UnsupportedType(kind: string)

  /** The message sent with the 401 response. */
  function Message(e: HeaderError): string
  {
    match e
    case NotProvided => "authorization is not provided"
    case InvalidFormat => "invalid authorization header format"
    case UnsupportedType(kind) => "unsupported authorization type " + kind
  }

  /** A missing header and a lone scheme are refused with the presence and the shape messages. */
  lemma RefusalMessages()
    ensures Message(GetBearerToken("").error) == "authorization is not provided"
    ensures Message(GetBearerToken("Bearer").error) == "invalid authorization header format"
  {
    assert IsWord("Bearer") by {
      forall i | 0 <= i < 6 ensures !IsSpace("Bearer"[i]) { }
    }
    FieldsOfSpaced("", ["Bearer"], [], "");
    assert "" + Spaced(["Bearer"], []) + "" == "Bearer";
  }

  /** A two-field header with another scheme is refused with a message naming that scheme lower-cased. */
  lemma {:induction false} UnsupportedTypeMessage(scheme: string, gap: string, token: string)
    requires IsWord(scheme) && IsWord(token)
    requires |gap| > 0 && AllSpace(gap)
    requires ToLower(scheme) != Scheme
    ensures GetBearerToken(scheme + gap + token) == Refused(UnsupportedType(ToLower(scheme)))
    ensures Message(GetBearerToken(scheme + gap + token).error) == "unsupported authorization type " + ToLower(scheme)
  {
    FieldsOfSpaced("", [scheme, token], [gap], "");
    assert "" + Spaced([scheme, token], [gap]) + "" == scheme + gap + token;
  }

  /** Either the token to record in the request context, or the refusal. */
  datatype HeaderResult = Token(token: string) | Refused(error: HeaderError)

  /** The header check: presence, then shape, then scheme; the first failing check decides. */
  function GetBearerToken(header: string): (r: HeaderResult)
    ensures r == Refused(NotProvided) <==> |header| == 0
    ensures r == Refused(InvalidFormat) <==> |header| > 0 && |Fields(header)| != 2
    ensures r.Refused? && r.error.UnsupportedType? ==>
      |Fields(header)| == 2 && r.error.kind == ToLower(Fields(header)[0]) != Scheme
    ensures r.Token? ==> Fields(header) == [Fields(header)[0], r.token] && ToLower(Fields(header)[0]) == Scheme
    ensures r.Token? ==> IsWord(r.token)
  {
    if |header| == 0 then Refused(NotProvided)
    else
      var fields := Fields(header);
      if |fields| != 2 then Refused(InvalidFormat)
      else
        var kind := ToLower(fields[0]);
        if kind != Scheme then Refused(UnsupportedType(kind))
        else Token(fields[1])
  }

  /** A non-empty header of only whitespace fails on shape, not on presence. */
  lemma BlankHeaderIsMalformed(header: string)
    requires |header| > 0 && AllSpace(header)
    ensures GetBearerToken(header) == Refused(InvalidFormat)
  {
    FieldsEmpty(header);
  }

  /** Round trip: any spelling of the scheme, whitespace around and between, and a token give back exactly that token. */
  lemma {:induction false} BearerRoundTrip(lead: string, scheme: string, gap: string, token: string, trail: string)
    requires AllSpace(lead) && AllSpace(gap) && AllSpace(trail)
    requires |gap| > 0
    requires ToLower(scheme) == Scheme
    requires IsWord(token)
    ensures GetBearerToken(lead + scheme + gap + token + trail) == Token(token)
  {
    var header := lead + scheme + gap + token + trail;
    assert IsWord(scheme) by {
      assert forall i :: 0 <= i < |scheme| ==> LowerChar(scheme[i]) == Scheme[i];
    }
    assert header == lead + (scheme + (gap + (token + trail)));
    FieldsSkipSpace(lead, scheme + (gap + (token + trail)));
    FieldsTakeWord(scheme, gap + (token + trail));
    FieldsSkipSpace(gap, token + trail);
    if |trail| == 0 {
      assert token + trail == token + "";
    }
    FieldsTakeWord(token, trail);
    FieldsEmpty(trail);
    assert Fields(header) == [scheme, token];
  }
}

=== FILE: common.dfy ===
/**
 Shared result and error types for the service layer.

 Every Go service call in the repository returns `(value, error)`; the model
 returns a `Result`, whose `Err` side names the error the Go code propagates.
 */
module Common {

  /** A possibly absent value: Go's nil pointer or a missing optional field. */
  datatype Option<+T> = None | Some(value: T)

  /** The errors the modelled services can return. */
  datatype Error =
    | RecordNotFound            // gorm.ErrRecordNotFound from `First`
    | DuplicateKey              // a unique index rejected an insert or save
    | PasswordConfirmMismatch   // "password and confirm password does not match"
    | MalformedHash             // the stored text is no bcrypt hash (too short, bad prefix, version or cost)
    | HashMismatch              // bcrypt.ErrMismatchedHashAndPassword
    | HashFailure               // bcrypt.GenerateFromPassword failed
    | TokenFailure              // the token maker could not generate a token

  datatype Result<+T> = Ok(value: T) | Err(error: Error)

  /** The string-field merge rule of the update services: "" keeps the stored value. */
  function Keep(arg: string, current: string): (r: string)
    ensures arg == "" ==> r == current
    ensures arg != "" ==> r == arg
  {
    if arg == "" then current else arg
  }

  /** The pointer-field merge rule of the session update: a nil argument keeps the stored value. */
  function Override<T>(arg: Option<T>, current: T): (r: T)
    ensures arg.None? ==> r == current
    ensures arg.Some? ==> r == arg.value
  {
    match arg
    case Some(v) => v
    case None => current
  }
}

=== FILE: flows.dfy ===
/**
 End-to-end properties across the services: a login whose session the
 login handler stores is admitted by the middleware, and logging out (deleting
 the session by token id) shuts every token of that login out.
 */
module Flows {
  import opened Common
  import Bearer
  import Token
  import Hasher
  import Users
  import Sessions
  import Auth
  import Gate

  /**
   The session the login handler stores for a login at time `now`: keyed by
   the payload's token id, owned by the user, holding both issued tokens, and
   expiring one lifetime after `now`.
   */
  function SessionArgs(u: Users.User, data: Auth.LoginData, userAgent: string, clientIp: string,
                       now: int): (a: Sessions.CreateArgs)
    ensures a.tokenId == data.payload.tokenId && a.userId == u.id
    ensures a.accessToken == data.accessToken && a.refreshToken == data.refreshToken
    ensures a.accessTokenExpiresIn - now == data.accessTokenExpiresIn
    ensures a.refreshTokenExpiresIn - now == data.refreshTokenExpiresIn
  {
    Sessions.CreateArgs(data.payload.tokenId, u.id, userAgent, clientIp, data.accessToken, data.refreshToken,
                        now + data.accessTokenExpiresIn, now + data.refreshTokenExpiresIn)
  }

  /**
   After a login and the storing of its session, presenting the access token
   as a bearer header is admitted, for the logged-in user and the login's payload.
   */
  lemma LoginThenAuthorize(users: Users.UserDb, sessions: Sessions.SessionDb, h: Hasher.PasswordHasher,
                           maker: Token.TokenMaker, cfg: Auth.LoginConfig, username: string, password: string,
                           freshTokenId: nat, now: int, u: Users.User, data: Auth.LoginData,
                           sessions': Sessions.SessionDb, s: Sessions.LoginSession)
    requires Users.Valid(users) && Sessions.Valid(sessions) && Token.RoundTrips(maker)
    requires Auth.LoginByUsernamePassword(users, h, maker, cfg, username, password, freshTokenId) == Ok((u, data))
    requires Bearer.IsWord(data.accessToken)
    requires Sessions.Create(sessions, SessionArgs(u, data, s.userAgent, s.clientIp, now), now) == Ok((sessions', s))
    ensures Gate.Authorize(maker, sessions', users, "Bearer " + data.accessToken).outcome
      == Gate.Admitted(Gate.AuthContext(data.accessToken, data.payload, u))
  {
    Auth.LoginTokensSharePayload(users, h, maker, cfg, username, password, freshTokenId);
    Sessions.CreateThenFind(sessions, SessionArgs(u, data, s.userAgent, s.clientIp, now), now);
    assert Users.GetUserById(users, s.userId) == Ok(u);
    Gate.AuthorizeAdmits(maker, sessions', users, data.accessToken, s, u);
  }

  /** Once a login's session is deleted, no token carrying its token id is admitted. */
  lemma LogoutThenRejected(users: Users.UserDb, sessions: Sessions.SessionDb, maker: Token.TokenMaker,
                           token: string)
    requires Users.Valid(users) && Sessions.Valid(sessions)
    requires maker.verify(token).Some?
    ensures var sessions' := Sessions.DeleteByTokenID(sessions, maker.verify(token).value.tokenId).value;
      Gate.VerifyTokenMiddleware(maker, sessions', users, token).outcome == Gate.Rejected(Gate.SessionNotFound)
  {
  }

  /**
   With 0 <= access hours <= refresh hours <= 2562047, the stored access
   expiry is no later than the refresh expiry.
   */
  lemma ExpiriesOrdered(users: Users.UserDb, h: Hasher.PasswordHasher, maker: Token.TokenMaker,
                        cfg: Auth.LoginConfig, username: string, password: string, freshTokenId: nat,
                        u: Users.User, data: Auth.LoginData, userAgent: string, clientIp: string, now: int)
    requires Users.Valid(users)
    requires Auth.LoginByUsernamePassword(users, h, maker, cfg, username, password, freshTokenId) == Ok((u, data))
    requires 0 <= cfg.accessTokenExpiryInHours <= cfg.refreshTokenExpiryInHours <= 2562047
    ensures var args := SessionArgs(u, data, userAgent, clientIp, now);
      now <= args.accessTokenExpiresIn <= args.refreshTokenExpiresIn
  {
    Auth.DurationExact(cfg.accessTokenExpiryInHours);
    Auth.DurationExact(cfg.refreshTokenExpiryInHours);
  }

  /**
   Past that bound the order breaks: a one-hour access lifetime and a
   2562048-hour refresh lifetime store a refresh expiry before the access expiry.
   */
  lemma ExpiryOrderOverflow(users: Users.UserDb, h: Hasher.PasswordHasher, maker: Token.TokenMaker,
                            username: string, password: string, freshTokenId: nat,
                            u: Users.User, data: Auth.LoginData, userAgent: string, clientIp: string, now: int)
    requires Users.Valid(users)
    requires Auth.LoginByUsernamePassword(users, h, maker, Auth.LoginConfig(1, 2562048), username, password,
                                          freshTokenId) == Ok((u, data))
    ensures var args := SessionArgs(u, data, userAgent, clientIp, now);
      args.refreshTokenExpiresIn < now < args.accessTokenExpiresIn
  {
    Auth.DurationExact(1);
    Auth.DurationOverflows();
  }

  /**
   The placeholder row that updating a missing user inserts has username ""
   and hash "": logging in as "" then fails on the malformed hash, whatever
   the password.
   */
  lemma PlaceholderUserCannotLogin(db: Users.UserDb, id: nat, name: string, email: string, now: int,
                                   h: Hasher.PasswordHasher, maker: Token.TokenMaker, cfg: Auth.LoginConfig,
                                   password: string, freshTokenId: nat)
    requires Users.Valid(db) && id !in db.rows && Hasher.RejectsShortHashes(h)
    requires Users.UpdateUserAsWritten(db, id, name, email, now).Ok?
    ensures Auth.LoginByUsernamePassword(Users.UpdateUserAsWritten(db, id, name, email, now).value.0, h, maker, cfg,
                                         "", password, freshTokenId) == Err(MalformedHash)
  {
    var (db', u) := Users.UpdateUserAsWritten(db, id, name, email, now).value;
    assert db'.rows[u.id].username == "";
    var found := Users.GetUserByUsername(db', "");
    assert found.value.id == u.id;
    assert !h.wellFormed("");
  }
}

=== FILE: gate.dfy ===
/**
 The authorization middleware: the bearer-header step followed by the
 verification chain (token, then login session by the token's id, then user
 by the session's user id). Each run records the lookups it made, in order;
 the chain stops at the first failure and never writes to a store.
 */
module Gate {
  import opened Common
  import Bearer
  import Token
  import Sessions
  import Users

  /** A call the middleware makes to a collaborator. */
  datatype Lookup =
    | VerifyToken(token: string)
    | FindSession(tokenId: nat)
    | FindUser(userId: nat)

  datatype GateError =
    | HeaderRefused(header: Bearer.HeaderError)
    | TokenRejected
    | SessionNotFound   // "login session not found"
    | UserNotFound      // "user not found"

  /** What the middleware attaches to the request for the handlers after it. */
  datatype AuthContext = AuthContext(token: string, payload: Token.TokenPayload, user: Users.User)

  datatype Outcome = Admitted(context: AuthContext) | Rejected(error: GateError)

  datatype Run = Run(outcome: Outcome, lookups: seq<Lookup>)

  /** The three-step verification of a token taken from the header. */
  function VerifyTokenMiddleware(maker: Token.TokenMaker, sessions: Sessions.SessionDb, users: Users.UserDb,
                                 token: string): (r: Run)
    requires Sessions.Valid(sessions) && Users.Valid(users)
    ensures 1 <= |r.lookups| <= 3 && r.lookups[0] == VerifyToken(token)
    ensures maker.verify(token).None? <==> r == Run(Rejected(TokenRejected), [VerifyToken(token)])
    ensures maker.verify(token).Some? &&
            Sessions.FindByTokenID(sessions, maker.verify(token).value.tokenId).Err?
            ==> r == Run(Rejected(SessionNotFound), [VerifyToken(token), FindSession(maker.verify(token).value.tokenId)])
    ensures maker.verify(token).Some? &&
            Sessions.FindByTokenID(sessions, maker.verify(token).value.tokenId).Ok? &&
            Users.GetUserById(users, Sessions.FindByTokenID(sessions, maker.verify(token).value.tokenId).value.userId).Err?
            ==> var p := maker.verify(token).value;
              var s := Sessions.FindByTokenID(sessions, p.tokenId).value;
              r == Run(Rejected(UserNotFound), [VerifyToken(token), FindSession(p.tokenId), FindUser(s.userId)])
    ensures r.outcome.Admitted? <==>
      && maker.verify(token).Some?
      && Sessions.FindByTokenID(sessions, maker.verify(token).value.tokenId).Ok?
      && Users.GetUserById(users, Sessions.FindByTokenID(sessions, maker.verify(token).value.tokenId).value.userId).Ok?
    ensures r.outcome.Admitted? ==>
      var p := maker.verify(token).value;
      var s := Sessions.FindByTokenID(sessions, p.tokenId).value;
      && maker.verify(token).Some?
      && Sessions.FindByTokenID(sessions, p.tokenId).Ok?
      && Users.GetUserById(users, s.userId) == Ok(r.outcome.context.user)
      && r.outcome.context == AuthContext(token, p, r.outcome.context.user)
      && r.lookups == [VerifyToken(token), FindSession(p.tokenId), FindUser(s.userId)]
  {
    match maker.verify(token)
    case None => Run(Rejected(TokenRejected), [VerifyToken(token)])
    case Some(payload) =>
      match Sessions.FindByTokenID(sessions, payload.tokenId)
      case Err(_) => Run(Rejected(SessionNotFound), [VerifyToken(token), FindSession(payload.tokenId)])
      case Ok(session) =>
        var lookups := [VerifyToken(token), FindSession(payload.tokenId), FindUser(session.userId)];
        match Users.GetUserById(users, session.userId)
        case Err(_) => Run(Rejected(UserNotFound), lookups)
        case Ok(user) => Run(Admitted(AuthContext(token, payload, user)), lookups)
  }

  /** Header step then verification chain, as the two middlewares run on a protected route. */
  function Authorize(maker: Token.TokenMaker, sessions: Sessions.SessionDb, users: Users.UserDb,
                     header: string): (r: Run)
    requires Sessions.Valid(sessions) && Users.Valid(users)
    ensures Bearer.GetBearerToken(header).Refused? <==> r.lookups == []
    ensures Bearer.GetBearerToken(header).Refused? ==>
      r.outcome == Rejected(HeaderRefused(Bearer.GetBearerToken(header).error))
    ensures r.outcome.Admitted? ==> Bearer.GetBearerToken(header) == Bearer.Token(r.outcome.context.token)
    ensures Bearer.GetBearerToken(header).Token? ==>
      r == VerifyTokenMiddleware(maker, sessions, users, Bearer.GetBearerToken(header).token)
  {
    match Bearer.GetBearerToken(header)
    case Refused(e) => Run(Rejected(HeaderRefused(e)), [])
    case Token(token) => VerifyTokenMiddleware(maker, sessions, users, token)
  }

  /** A well-formed bearer header whose token, session and user all resolve is admitted. */
  lemma AuthorizeAdmits(maker: Token.TokenMaker, sessions: Sessions.SessionDb, users: Users.UserDb,
                        token: string, session: Sessions.LoginSession, user: Users.User)
    requires Sessions.Valid(sessions) && Users.Valid(users)
    requires Bearer.IsWord(token)
    requires maker.verify(token).Some?
    requires Sessions.FindByTokenID(sessions, maker.verify(token).value.tokenId) == Ok(session)
    requires Users.GetUserById(users, session.userId) == Ok(user)
    ensures Authorize(maker, sessions, users, "Bearer " + token).outcome
      == Admitted(AuthContext(token, maker.verify(token).value, user))
  {
    Bearer.BearerRoundTrip("", "Bearer", " ", token, "");
    assert "" + "Bearer" + " " + token + "" == "Bearer " + token;
  }

  /**
   Admission does not depend on the user id inside the payload: two tokens
   whose payloads share the token id are admitted as the same user.
   */
  lemma UserComesFromSession(maker: Token.TokenMaker, sessions: Sessions.SessionDb, users: Users.UserDb,
                             t1: string, t2: string)
    requires Sessions.Valid(sessions) && Users.Valid(users)
    requires maker.verify(t1).Some? && maker.verify(t2).Some?
    requires maker.verify(t1).value.tokenId == maker.verify(t2).value.tokenId
    ensures var r1 := VerifyTokenMiddleware(maker, sessions, users, t1);
      var r2 := VerifyTokenMiddleware(maker, sessions, users, t2);
      && r1.outcome.Admitted? == r2.outcome.Admitted?
      && (r1.outcome.Admitted? ==> r1.outcome.context.user == r2.outcome.context.user)
  {
  }
}

=== FILE: hasher.dfy ===
/**
 The password hash (bcrypt in the source), modelled as an oracle: `hash`
 is GenerateFromPassword (`None` for its error), `wellFormed(hashed)` says
 that stored text parses as a bcrypt hash, and `matches(hashed, plain)` that
 the password fits a well-formed hash.
 */
module Hasher {
  import opened Common
  import Text

  datatype PasswordHasher = PasswordHasher(
    hash: string -> Option<string>,
    wellFormed: string -> bool,
    matches: (string, string) -> bool)

  /** bcrypt's shortest encoded hash, in bytes. */
  const MinHashSize: nat := 59

  /** CompareHashAndPassword: `None` when the password fits, otherwise the error it returns. */
  function Compare(h: PasswordHasher, hashed: string, plain: string): (r: Option<Error>)
    ensures r.None? <==> h.wellFormed(hashed) && h.matches(hashed, plain)
    ensures !h.wellFormed(hashed) ==> r == Some(MalformedHash)
    ensures h.wellFormed(hashed) && !h.matches(hashed, plain) ==> r == Some(HashMismatch)
  {
    if !h.wellFormed(hashed) then Some(MalformedHash)
    else if !h.matches(hashed, plain) then Some(HashMismatch)
    else None
  }

  /** A hash the oracle produced is well formed and accepted for its password. */
  ghost predicate Consistent(h: PasswordHasher)
  {
    forall p :: h.hash(p).Some? ==> h.wellFormed(h.hash(p).value) && h.matches(h.hash(p).value, p)
  }

  /**
   Stored text whose UTF-8 encoding is shorter than a bcrypt hash is refused
   before any comparison (ErrHashTooShort); bcrypt measures bytes, not runes.
   */
  ghost predicate RejectsShortHashes(h: PasswordHasher)
  {
    forall s :: Text.Utf8Length(s) < MinHashSize ==> !h.wellFormed(s)
  }

  /** The minimum is in bytes: twenty three-byte runes already exceed it. */
  lemma ShortHashMeasuredInBytes()
    ensures var s := seq(20, _ => '€');
      |s| < MinHashSize <= Text.Utf8Length(s)
  {
    var s := seq(20, _ => '€');
    Text.Utf8ThreeByte(s);
  }

  /** A generated hash compares equal to its password. */
  lemma GeneratedHashAccepted(h: PasswordHasher, p: string)
    requires Consistent(h) && h.hash(p).Some?
    ensures Compare(h, h.hash(p).value, p) == None
  {
  }
}

=== FILE: sessions.dfy ===
/**
 The login-session store: one row per login, keyed by an auto-increment id
 and carrying the login's token id under a unique index. Times are integers
 supplied by the caller.
 */
module Sessions {
  import opened Common
  import Table

  datatype LoginSession = LoginSession(
    id: nat,
    tokenId: nat,
    userId: nat,
    accessToken: string,
    refreshToken: string,
    userAgent: string,
    clientIp: string,
    accessTokenExpiresIn: int,
    refreshTokenExpiresIn: int,
    lastUsedAt: Option<int>,
    createdAt: int,
    updatedAt: int,
    deletedAt: Option<int>)

  /** What a new session is created from. */
  datatype CreateArgs = CreateArgs(
    tokenId: nat,
    userId: nat,
    userAgent: string,
    clientIp: string,
    accessToken: string,
    refreshToken: string,
    accessTokenExpiresIn: int,
    refreshTokenExpiresIn: int)

  /** A partial update: `None` leaves the field as stored. */
  datatype UpdateArgs = UpdateArgs(
    accessToken: Option<string>,
    refreshToken: Option<string>,
    accessTokenExpiresIn: Option<int>,
    refreshTokenExpiresIn: Option<int>,
    lastUsedAt: Option<int>)

  datatype SessionDb = SessionDb(rows: map<nat, LoginSession>, nextId: nat)

  /** Keys are the rows' ids, issued by the sequence, and no two rows share a token id. */
  ghost predicate Valid(db: SessionDb)
  {
    && db.nextId >= 1
    && (forall k :: k in db.rows ==> 0 < k < db.nextId && db.rows[k].id == k)
    && (forall j, k :: j in db.rows && k in db.rows && db.rows[j].tokenId == db.rows[k].tokenId ==> j == k)
  }

  predicate TokenIdTaken(db: SessionDb, tokenId: nat)
  {
    exists k :: k in db.rows && db.rows[k].tokenId == tokenId
  }

  /** Insert a session built from `args`; the unique index refuses a token id already stored. */
  function Create(db: SessionDb, args: CreateArgs, now: int): (r: Result<(SessionDb, LoginSession)>)
    requires Valid(db)
    ensures r.Err? <==> TokenIdTaken(db, args.tokenId)
    ensures r.Err? ==> r.error == DuplicateKey
    ensures r.Ok? ==> Valid(r.value.0)
    ensures r.Ok? ==> var (db', s) := r.value;
      && s.id !in db.rows && db'.rows == db.rows[s.id := s]
      && s.tokenId == args.tokenId && s.userId == args.userId
      && s.userAgent == args.userAgent && s.clientIp == args.clientIp
      && s.accessToken == args.accessToken && s.refreshToken == args.refreshToken
      && s.accessTokenExpiresIn == args.accessTokenExpiresIn
      && s.refreshTokenExpiresIn == args.refreshTokenExpiresIn
      && s.lastUsedAt.None? && s.deletedAt.None? && s.createdAt == now
  {
    if TokenIdTaken(db, args.tokenId) then Err(DuplicateKey)
    else
      var s := LoginSession(db.nextId, args.tokenId, args.userId, args.accessToken, args.refreshToken,
                            args.userAgent, args.clientIp, args.accessTokenExpiresIn,
                            args.refreshTokenExpiresIn, None, now, now, None);
      Ok((SessionDb(db.rows[s.id := s], db.nextId + 1), s))
  }

  function FindById(db: SessionDb, id: nat): (r: Result<LoginSession>)
    requires Valid(db)
    ensures r.Ok? <==> id in db.rows
    ensures r.Ok? ==> r.value.id == id && r.value == db.rows[id]
    ensures r.Err? ==> r.error == RecordNotFound
  {
    if id in db.rows then Ok(db.rows[id]) else Err(RecordNotFound)
  }

  function FindByTokenID(db: SessionDb, tokenId: nat): (r: Result<LoginSession>)
    requires Valid(db)
    ensures r.Ok? ==> r.value.tokenId == tokenId && r.value.id in db.rows && db.rows[r.value.id] == r.value
    ensures r.Err? <==> !TokenIdTaken(db, tokenId)
    ensures r.Err? ==> r.error == RecordNotFound
  {
    match Table.First(db.rows, (s: LoginSession) => s.tokenId == tokenId, db.nextId)
    case None => Err(RecordNotFound)
    case Some(k) => Ok(db.rows[k])
  }

  /** The row after the partial update: only the supplied fields, and the update time, change. */
  function Merge(s: LoginSession, args: UpdateArgs, now: int): LoginSession
  {
    s.(accessToken := Override(args.accessToken, s.accessToken),
       refreshToken := Override(args.refreshToken, s.refreshToken),
       accessTokenExpiresIn := Override(args.accessTokenExpiresIn, s.accessTokenExpiresIn),
       refreshTokenExpiresIn := Override(args.refreshTokenExpiresIn, s.refreshTokenExpiresIn),
       lastUsedAt := if args.lastUsedAt.Some? then args.lastUsedAt else s.lastUsedAt,
       updatedAt := now)
  }

  /** Read, merge and save in one transaction; an unknown id rolls back with not-found. */
  function UpdateSession(db: SessionDb, id: nat, args: UpdateArgs, now: int): (r: Result<(SessionDb, LoginSession)>)
    requires Valid(db)
    ensures r.Err? <==> id !in db.rows
    ensures r.Err? ==> r.error == RecordNotFound
    ensures r.Ok? ==> Valid(r.value.0)
    ensures r.Ok? ==> var (db', s) := r.value; var old_ := db.rows[id];
      && db'.rows == db.rows[id := s] && db'.nextId == db.nextId
      && s.id == id && s.tokenId == old_.tokenId && s.userId == old_.userId
      && s.userAgent == old_.userAgent && s.clientIp == old_.clientIp
      && s.createdAt == old_.createdAt && s.deletedAt == old_.deletedAt && s.updatedAt == now
      && s.accessToken == (if args.accessToken.Some? then args.accessToken.value else old_.accessToken)
      && s.refreshToken == (if args.refreshToken.Some? then args.refreshToken.value else old_.refreshToken)
      && s.accessTokenExpiresIn ==
           (if args.accessTokenExpiresIn.Some? then args.accessTokenExpiresIn.value else old_.accessTokenExpiresIn)
      && s.refreshTokenExpiresIn ==
           (if args.refreshTokenExpiresIn.Some? then args.refreshTokenExpiresIn.value else old_.refreshTokenExpiresIn)
      && s.lastUsedAt == (if args.lastUsedAt.Some? then args.lastUsedAt else old_.lastUsedAt)
  {
    if id !in db.rows then Err(RecordNotFound)
    else
      var s := Merge(db.rows[id], args, now);
      Ok((db.(rows := db.rows[id := s]), s))
  }

  /** Remove every row with this token id; no match is not an error. */
  function DeleteByTokenID(db: SessionDb, tokenId: nat): (r: Result<SessionDb>)
    requires Valid(db)
    ensures r.Ok? && Valid(r.value) && r.value.nextId == db.nextId
    ensures !TokenIdTaken(r.value, tokenId)
    ensures forall k :: k in db.rows && db.rows[k].tokenId != tokenId ==> k in r.value.rows && r.value.rows[k] == db.rows[k]
    ensures forall k :: k in r.value.rows ==> k in db.rows
  {
    Ok(db.(rows := map k | k in db.rows && db.rows[k].tokenId != tokenId :: db.rows[k]))
  }

  /** A created session is found by its token id and by its id. */
  lemma CreateThenFind(db: SessionDb, args: CreateArgs, now: int)
    requires Valid(db)
    requires Create(db, args, now).Ok?
    ensures var (db', s) := Create(db, args, now).value;
      FindByTokenID(db', args.tokenId) == Ok(s) && FindById(db', s.id) == Ok(s)
  {
    var (db', s) := Create(db, args, now).value;
    assert db'.rows[s.id].tokenId == args.tokenId;
    assert FindByTokenID(db', args.tokenId).value.id == s.id;
  }

  /** Applying the same partial update twice gives the same row as applying it once. */
  lemma UpdateIdempotent(db: SessionDb, id: nat, args: UpdateArgs, now: int)
    requires Valid(db)
    requires UpdateSession(db, id, args, now).Ok?
    ensures var (db1, s1) := UpdateSession(db, id, args, now).value;
      UpdateSession(db1, id, args, now) == Ok((db1, s1))
  {
    var (db1, s1) := UpdateSession(db, id, args, now).value;
    assert db1.rows[id := s1] == db1.rows;
  }

  /** After deleting a token id it is no longer found; every other token id is found as before. */
  lemma DeleteThenFind(db: SessionDb, tokenId: nat, other: nat)
    requires Valid(db)
    requires other != tokenId
    ensures FindByTokenID(DeleteByTokenID(db, tokenId).value, tokenId) == Err(RecordNotFound)
    ensures FindByTokenID(DeleteByTokenID(db, tokenId).value, other) == FindByTokenID(db, other)
  {
    var db' := DeleteByTokenID(db, tokenId).value;
    var before := FindByTokenID(db, other);
    var after := FindByTokenID(db', other);
    if before.Ok? {
      assert db'.rows[before.value.id].tokenId == other;
      assert after.Ok? && after.value.id == before.value.id;
    } else {
      assert !TokenIdTaken(db', other);
    }
  }

  /** Deleting twice is the same as deleting once. */
  lemma DeleteIdempotent(db: SessionDb, tokenId: nat)
    requires Valid(db)
    ensures var db1 := DeleteByTokenID(db, tokenId).value;
      DeleteByTokenID(db1, tokenId) == Ok(db1)
  {
    var db1 := DeleteByTokenID(db, tokenId).value;
    assert DeleteByTokenID(db1, tokenId).value.rows == db1.rows;
  }
}

=== FILE: table.dfy ===
/**
 A database table as a finite map from auto-increment primary key to row.
 GORM's `First` returns the matching row of smallest primary key; `Find`
 over a whole table is modelled as listing the rows in key order.
 */
module Table {
  import opened Common

  /** The smallest key in [k, bound) whose row satisfies `p`. */
  function FirstFrom<T>(rows: map<nat, T>, p: T -> bool, k: nat, bound: nat): (r: Option<nat>)
    ensures r.Some? ==> k <= r.value < bound && r.value in rows && p(rows[r.value])
    ensures r.Some? ==> forall i :: k <= i < r.value && i in rows ==> !p(rows[i])
    ensures r.None? ==> forall i :: k <= i < bound && i in rows ==> !p(rows[i])
    decreases bound - k
  {
    if k >= bound then None
    else if k in rows && p(rows[k]) then Some(k)
    else FirstFrom(rows, p, k + 1, bound)
  }

  /** The smallest key below `bound` whose row satisfies `p`: GORM's `First` with a condition. */
  function First<T>(rows: map<nat, T>, p: T -> bool, bound: nat): (r: Option<nat>)
    requires forall k :: k in rows ==> k < bound
    ensures r.Some? ==> r.value in rows && p(rows[r.value])
    ensures r.Some? ==> forall i :: i in rows && i < r.value ==> !p(rows[i])
    ensures r.None? <==> forall i :: i in rows ==> !p(rows[i])
  {
    FirstFrom(rows, p, 0, bound)
  }

  /** All rows with key below `bound`, in increasing key order, with their keys. */
  method List<T>(rows: map<nat, T>, bound: nat) returns (keys: seq<nat>, out: seq<T>)
    ensures |keys| == |out|
    ensures forall i :: 0 <= i < |keys| ==> keys[i] in rows && out[i] == rows[keys[i]]
    ensures forall i, j :: 0 <= i < j < |keys| ==> keys[i] < keys[j]
    ensures forall k :: k in rows && k < bound <==> k in keys
  {
    keys, out := [], [];
    for n := 0 to bound
      invariant |keys| == |out|
      invariant forall i :: 0 <= i < |keys| ==> keys[i] in rows && out[i] == rows[keys[i]]
      invariant forall i :: 0 <= i < |keys| ==> keys[i] < n
      invariant forall i, j :: 0 <= i < j < |keys| ==> keys[i] < keys[j]
      invariant forall k :: k in rows && k < n <==> k in keys
    {
      if n in rows {
        keys, out := keys + [n], out + [rows[n]];
      }
    }
  }

  /** A strictly increasing list holding exactly a map's keys is as long as the map. */
  lemma {:induction false} KeysCount<T>(keys: seq<nat>, rows: map<nat, T>)
    requires forall i, j :: 0 <= i < j < |keys| ==> keys[i] < keys[j]
    requires forall k :: k in rows <==> k in keys
    ensures |keys| == |rows|
    decreases |keys|
  {
    if |keys| == 0 {
      assert rows.Keys == {};
    } else {
      var last := keys[|keys| - 1];
      var front := keys[..|keys| - 1];
      assert last !in front;
      var rest := rows - {last};
      assert forall k :: k in rest <==> k in front by {
        forall k
          ensures k in rest <==> k in front
        {
          if k in keys && k != last {
            var i :| 0 <= i < |keys| && keys[i] == k;
            assert i < |keys| - 1;
            assert front[i] == k;
          }
        }
      }
      KeysCount(front, rest);
      assert rows.Keys == rest.Keys + {last};
    }
  }

}

=== FILE: text.dfy ===
/**
 String helpers used by the validators and the header parser: first index of
 a character, splitting on a separator (Go's strings.Split with a one-rune
 separator) and its inverse, joining.
 */
module Text {
  import opened Common

  /** The index of the first occurrence of `c` in `s`, if any. */
  function IndexOf(s: string, c: char): (r: Option<nat>)
    ensures r.Some? ==> r.value < |s| && s[r.value] == c && c !in s[..r.value]
    ensures r.None? ==> c !in s
  {
    if |s| == 0 then None
    else if s[0] == c then Some(0)
    else
      match IndexOf(s[1..], c)
      case None => None
      case Some(i) =>
        assert s[1..][..i] == s[1..i + 1];
        assert s[..i + 1] == [s[0]] + s[1..i + 1];
        Some(i + 1)
  }

  /** Number of bytes of the UTF-8 encoding of `s`. */
  function Utf8Length(s: string): (n: nat)
    ensures |s| <= n <= 4 * |s|
  {
    if |s| == 0 then 0
    else
      var c := s[0] as int;
      (if c < 0x80 then 1 else if c < 0x800 then 2 else if c < 0x10000 then 3 else 4) + Utf8Length(s[1..])
  }

  lemma {:induction false} Utf8LengthAppend(a: string, b: string)
    ensures Utf8Length(a + b) == Utf8Length(a) + Utf8Length(b)
    decreases |a|
  {
    if |a| == 0 {
      assert a + b == b;
    } else {
      assert (a + b)[1..] == a[1..] + b;
      Utf8LengthAppend(a[1..], b);
    }
  }

  /** Runes from U+0800 to U+FFFF take three bytes each. */
  lemma {:induction false} Utf8ThreeByte(s: string)
    requires forall i :: 0 <= i < |s| ==> 0x800 <= s[i] as int < 0x10000
    ensures Utf8Length(s) == 3 * |s|
    decreases |s|
  {
    if |s| > 0 {
      Utf8ThreeByte(s[1..]);
    }
  }

  /** Number of occurrences of `c` in `s`. */
  function Count(s: string, c: char): nat
  {
    if |s| == 0 then 0 else (if s[0] == c then 1 else 0) + Count(s[1..], c)
  }

  lemma {:induction false} CountAppend(a: string, b: string, c: char)
    ensures Count(a + b, c) == Count(a, c) + Count(b, c)
  {
    if |a| == 0 {
      assert a + b == b;
    } else {
      assert (a + b)[1..] == a[1..] + b;
      CountAppend(a[1..], b, c);
    }
  }

  lemma {:induction false} CountAbsent(s: string, c: char)
    requires c !in s
    ensures Count(s, c) == 0
  {
    if |s| > 0 {
      assert c !in s[1..];
      CountAbsent(s[1..], c);
    }
  }

  /** Splits `s` around every occurrence of `sep`; never returns an empty list. */
  function Split(s: string, sep: char): (r: seq<string>)
    ensures |r| >= 1
    ensures forall i :: 0 <= i < |r| ==> sep !in r[i]
    decreases |s|
  {
    match IndexOf(s, sep)
    case None => [s]
    case Some(i) => [s[..i]] + Split(s[i + 1..], sep)
  }

  /** Concatenates `parts` with `sep` between neighbours. */
  function Join(parts: seq<string>, sep: char): string
    requires |parts| >= 1
  {
    if |parts| == 1 then parts[0] else parts[0] + [sep] + Join(parts[1..], sep)
  }

  /** Joining what was split gives back the original string. */
  lemma {:induction false} JoinSplit(s: string, sep: char)
    ensures Join(Split(s, sep), sep) == s
    decreases |s|
  {
    match IndexOf(s, sep)
    case None =>
    case Some(i) =>
      var tail := Split(s[i + 1..], sep);
      var parts := [s[..i]] + tail;
      assert Split(s, sep) == parts;
      assert parts[1..] == tail;
      JoinSplit(s[i + 1..], sep);
      assert Join(parts, sep) == s[..i] + [sep] + Join(tail, sep);
      assert s == s[..i] + [sep] + s[i + 1..];
  }

  /** Splitting a join of separator-free parts gives back the parts. */
  lemma {:induction false} SplitJoin(parts: seq<string>, sep: char)
    requires |parts| >= 1
    requires forall i :: 0 <= i < |parts| ==> sep !in parts[i]
    ensures Split(Join(parts, sep), sep) == parts
    decreases |parts|
  {
    var s := Join(parts, sep);
    if |parts| == 1 {
      assert IndexOf(s, sep) == None;
    } else {
      var rest := Join(parts[1..], sep);
      assert s == parts[0] + [sep] + rest;
      IndexAfterPrefix(parts[0], sep, rest);
      assert s[..|parts[0]|] == parts[0];
      assert s[|parts[0]| + 1..] == rest;
      SplitJoin(parts[1..], sep);
    }
  }

  /** The first `sep` of `p + [sep] + rest` is the one right after a sep-free `p`. */
  lemma {:induction false} IndexAfterPrefix(p: string, sep: char, rest: string)
    requires sep !in p
    ensures IndexOf(p + [sep] + rest, sep) == Some(|p|)
  {
    if |p| > 0 {
      assert (p + [sep] + rest)[1..] == p[1..] + [sep] + rest;
      assert sep !in p[1..];
      IndexAfterPrefix(p[1..], sep, rest);
    }
  }

  /** A character that occurs in no part nor the separator does not occur in the join. */
  lemma {:induction false} JoinAbsent(parts: seq<string>, sep: char, c: char)
    requires |parts| >= 1
    requires c != sep
    requires forall i :: 0 <= i < |parts| ==> c !in parts[i]
    ensures c !in Join(parts, sep)
    decreases |parts|
  {
    if |parts| > 1 {
      JoinAbsent(parts[1..], sep, c);
    }
  }
}

=== FILE: todos.dfy ===
/**
 The to-do store and the to-do service's create, get, update, list and
 delete operations. The service takes ids as signed integers; a negative id
 matches no row.
 */
module Todos {
  import opened Common
  import Table

  datatype Todo = Todo(id: nat, name: string, description: string, createdAt: int, updatedAt: int)

  datatype TodoDb = TodoDb(rows: map<nat, Todo>, nextId: nat)

  ghost predicate Valid(db: TodoDb)
  {
    && db.nextId >= 1
    && forall k :: k in db.rows ==> 0 < k < db.nextId && db.rows[k].id == k
  }

  /** Insert a new item under the next id. */
  function CreateTodo(db: TodoDb, name: string, description: string, now: int): (r: Result<(TodoDb, Todo)>)
    requires Valid(db)
    ensures r.Ok? && Valid(r.value.0)
    ensures var (db', t) := r.value;
      && t.id !in db.rows && db'.rows == db.rows[t.id := t]
      && t.name == name && t.description == description && t.createdAt == now
  {
    var t := Todo(db.nextId, name, description, now, now);
    Ok((TodoDb(db.rows[t.id := t], db.nextId + 1), t))
  }

  /** The stored key an integer id denotes, if any. */
  predicate Stored(db: TodoDb, id: int)
  {
    id >= 0 && id in db.rows
  }

  function GetById(db: TodoDb, id: int): (r: Result<Todo>)
    requires Valid(db)
    ensures r.Ok? <==> Stored(db, id)
    ensures r.Ok? ==> r.value.id == id && r.value == db.rows[id]
    ensures r.Err? ==> r.error == RecordNotFound
  {
    if Stored(db, id) then Ok(db.rows[id]) else Err(RecordNotFound)
  }

  /** Update the name and description of an existing item; other items are untouched. */
  function UpdateTodo(db: TodoDb, id: int, name: string, description: string, now: int): (r: Result<(TodoDb, Todo)>)
    requires Valid(db)
    ensures r.Err? <==> !Stored(db, id)
    ensures r.Err? ==> r.error == RecordNotFound
    ensures r.Ok? ==> Valid(r.value.0)
    ensures r.Ok? ==> var (db', t) := r.value; var old_ := db.rows[id];
      && t.id == id && db'.rows == db.rows[id := t] && db'.nextId == db.nextId
      && t.createdAt == old_.createdAt && t.updatedAt == now
      && (name == "" ==> t.name == old_.name) && (name != "" ==> t.name == name)
      && (description == "" ==> t.description == old_.description)
      && (description != "" ==> t.description == description)
  {
    if !Stored(db, id) then Err(RecordNotFound)
    else
      var t := db.rows[id];
      var t' := t.(name := Keep(name, t.name), description := Keep(description, t.description), updatedAt := now);
      Ok((db.(rows := db.rows[id := t']), t'))
  }

  /** Every item, in increasing id order. */
  method ListTodo(db: TodoDb) returns (todos: seq<Todo>)
    requires Valid(db)
    ensures forall i :: 0 <= i < |todos| ==> todos[i].id in db.rows && db.rows[todos[i].id] == todos[i]
    ensures forall k :: k in db.rows ==> exists i :: 0 <= i < |todos| && todos[i].id == k
    ensures forall i, j :: 0 <= i < j < |todos| ==> todos[i].id < todos[j].id
    ensures |todos| == |db.rows|
  {
    var keys;
    keys, todos := Table.List(db.rows, db.nextId);
    forall k | k in db.rows
      ensures exists i :: 0 <= i < |todos| && todos[i].id == k
    {
      var i :| 0 <= i < |keys| && keys[i] == k;
      assert todos[i].id == k;
    }
    Table.KeysCount(keys, db.rows);
  }

  /** Delete an existing item; a missing id is an error and changes nothing. */
  function DeleteTodo(db: TodoDb, id: int): (r: Result<TodoDb>)
    requires Valid(db)
    ensures r.Err? <==> !Stored(db, id)
    ensures r.Err? ==> r.error == RecordNotFound
    ensures r.Ok? ==> Valid(r.value) && r.value.rows.Keys == db.rows.Keys - {id as nat}
    ensures r.Ok? ==> forall k :: k in r.value.rows ==> r.value.rows[k] == db.rows[k]
  {
    if !Stored(db, id) then Err(RecordNotFound)
    else Ok(db.(rows := db.rows - {id as nat}))
  }

  /** A created item is found again by its id. */
  lemma CreateThenGet(db: TodoDb, name: string, description: string, now: int)
    requires Valid(db)
    ensures var (db', t) := CreateTodo(db, name, description, now).value;
      GetById(db', t.id) == Ok(t)
  {
  }

  /** After a delete the id is no longer found, and the other items still are. */
  lemma DeleteThenGet(db: TodoDb, id: int, other: int)
    requires Valid(db)
    requires DeleteTodo(db, id).Ok?
    requires other != id
    ensures GetById(DeleteTodo(db, id).value, id).Err?
    ensures GetById(DeleteTodo(db, id).value, other) == GetById(db, other)
  {
  }

  /** Applying the same update twice gives the same item as applying it once. */
  lemma UpdateIdempotent(db: TodoDb, id: int, name: string, description: string, now: int)
    requires Valid(db)
    requires UpdateTodo(db, id, name, description, now).Ok?
    ensures var (db1, t1) := UpdateTodo(db, id, name, description, now).value;
      UpdateTodo(db1, id, name, description, now) == Ok((db1, t1))
  {
    var (db1, t1) := UpdateTodo(db, id, name, description, now).value;
    assert db1.rows[id := t1] == db1.rows;
  }
}

=== FILE: token.dfy ===
/**
 The token payload and the token maker. The PASETO encryption and JSON
 encoding behind the maker are not modelled: a `TokenMaker` is a pair of
 functions, and `RoundTrips` is the one property the rest of the model
 relies on, that verifying a generated token gives back its payload.
 */
module Token {
  import opened Common

  /** The claims a token carries: the login's token id (a UUID) and the user id as text. */
  datatype TokenPayload = TokenPayload(tokenId: nat, userId: string)

  /**
   `generate(payload, ttl)` is the maker's GenerateToken (ttl in nanoseconds),
   `verify(token)` its VerifyToken; `None` stands for the returned error.
   */
  datatype TokenMaker = TokenMaker(
    generate: (TokenPayload, int) -> Option<string>,
    verify: string -> Option<TokenPayload>)

  /** Every token the maker generates verifies to the payload it was generated from. */
  ghost predicate RoundTrips(m: TokenMaker)
  {
    forall p, ttl :: m.generate(p, ttl).Some? ==> m.verify(m.generate(p, ttl).value) == Some(p)
  }

  /** The decimal text of a natural number, as fmt.Sprint prints an unsigned id. */
  function Decimal(n: nat): (r: string)
    ensures |r| >= 1
    ensures forall i :: 0 <= i < |r| ==> '0' <= r[i] <= '9'
    ensures r[0] == '0' ==> n == 0
  {
    if n < 10 then [Digit(n)] else Decimal(n / 10) + [Digit(n % 10)]
  }

  function Digit(d: nat): (c: char)
    requires d < 10
  {
    ('0' as int + d) as char
  }

  /** The value of a non-empty string of decimal digits. */
  function ValueOf(s: string): nat
    requires |s| >= 1
    requires forall i :: 0 <= i < |s| ==> '0' <= s[i] <= '9'
  {
    var d := s[|s| - 1] as int - '0' as int;
    if |s| == 1 then d else 10 * ValueOf(s[..|s| - 1]) + d
  }

  /** Reading back the printed id gives the id. */
  lemma {:induction false} DecimalRoundTrip(n: nat)
    ensures ValueOf(Decimal(n)) == n
  {
    if n >= 10 {
      var s := Decimal(n);
      assert s[..|s| - 1] == Decimal(n / 10);
      DecimalRoundTrip(n / 10);
    }
  }

  /** Distinct ids print differently, so the payload's user id names one user. */
  lemma DecimalInjective(a: nat, b: nat)
    requires Decimal(a) == Decimal(b)
    ensures a == b
  {
    DecimalRoundTrip(a);
    DecimalRoundTrip(b);
  }
}

=== FILE: users.dfy ===
/**
 The user store: a `users` table with unique username and e-mail, and the
 user service's create, lookup, list, update, password-change and delete
 operations over it. Each operation is one atomic step from store to store.
 */
module Users {
  import opened Common
  import Table
  import Hasher

  datatype User = User(
    id: nat,
    username: string,
    email: string,
    name: string,
    hashedPassword: string,
    createdAt: int,
    updatedAt: int)

  /** The table and the next value of its auto-increment sequence. */
  datatype UserDb = UserDb(rows: map<nat, User>, nextId: nat)

  /** Keys are the rows' ids, all issued by the sequence, and both unique indexes hold. */
  ghost predicate Valid(db: UserDb)
  {
    && db.nextId >= 1
    && (forall k :: k in db.rows ==> 0 < k < db.nextId && db.rows[k].id == k)
    && (forall j, k :: j in db.rows && k in db.rows && db.rows[j].username == db.rows[k].username ==> j == k)
    && (forall j, k :: j in db.rows && k in db.rows && db.rows[j].email == db.rows[k].email ==> j == k)
  }

  /** A fresh table; the sequence starts at 1. */
  function Empty(): (db: UserDb)
    ensures Valid(db) && db.rows == map[]
  {
    UserDb(map[], 1)
  }

  predicate UsernameTaken(db: UserDb, username: string)
  {
    exists k :: k in db.rows && db.rows[k].username == username
  }

  predicate EmailTaken(db: UserDb, email: string)
  {
    exists k :: k in db.rows && db.rows[k].email == email
  }

  /** GORM's Create of a row with zero id: the next id and the timestamps are assigned, unless a unique index refuses it. */
  function Insert(db: UserDb, u: User, now: int): (r: Result<(UserDb, User)>)
    requires Valid(db)
    ensures r.Err? <==> UsernameTaken(db, u.username) || EmailTaken(db, u.email)
    ensures r.Err? ==> r.error == DuplicateKey
    ensures r.Ok? ==> Valid(r.value.0)
    ensures r.Ok? ==> var (db', s) := r.value;
      && s.id == db.nextId && s.id !in db.rows
      && s.username == u.username && s.email == u.email && s.name == u.name
      && s.hashedPassword == u.hashedPassword && s.createdAt == now && s.updatedAt == now
      && db'.rows == db.rows[s.id := s] && db'.nextId > db.nextId
  {
    if UsernameTaken(db, u.username) || EmailTaken(db, u.email) then Err(DuplicateKey)
    else
      var s := u.(id := db.nextId, createdAt := now, updatedAt := now);
      Ok((UserDb(db.rows[s.id := s], db.nextId + 1), s))
  }

  /** Hash the password, then insert the user in one transaction. */
  function CreateUser(db: UserDb, h: Hasher.PasswordHasher, username: string, email: string,
                      name: string, password: string, now: int): (r: Result<(UserDb, User)>)
    requires Valid(db)
    ensures h.hash(password).None? ==> r == Err(HashFailure)
    ensures h.hash(password).Some? ==>
      (r.Err? <==> UsernameTaken(db, username) || EmailTaken(db, email))
    ensures r.Err? ==> r.error in {HashFailure, DuplicateKey}
    ensures r.Ok? ==> Valid(r.value.0)
    ensures r.Ok? ==> var (db', u) := r.value;
      && u.id !in db.rows && db'.rows == db.rows[u.id := u]
      && u.username == username && u.email == email && u.name == name
      && h.hash(password) == Some(u.hashedPassword)
  {
    match h.hash(password)
    case None => Err(HashFailure)
    case Some(hashed) => Insert(db, User(0, username, email, name, hashed, 0, 0), now)
  }

  function GetUserById(db: UserDb, id: nat): (r: Result<User>)
    requires Valid(db)
    ensures r.Ok? <==> id in db.rows
    ensures r.Ok? ==> r.value.id == id && r.value == db.rows[id]
    ensures r.Err? ==> r.error == RecordNotFound
  {
    if id in db.rows then Ok(db.rows[id]) else Err(RecordNotFound)
  }

  /** `First` with a condition on the row: the matching user of smallest id. */
  function FirstWhere(db: UserDb, p: User -> bool): (r: Result<User>)
    requires Valid(db)
    ensures r.Ok? ==> r.value.id in db.rows && db.rows[r.value.id] == r.value && p(r.value)
    ensures r.Err? <==> forall k :: k in db.rows ==> !p(db.rows[k])
    ensures r.Err? ==> r.error == RecordNotFound
  {
    match Table.First(db.rows, p, db.nextId)
    case None => Err(RecordNotFound)
    case Some(k) => Ok(db.rows[k])
  }

  function GetUserByUsername(db: UserDb, username: string): (r: Result<User>)
    requires Valid(db)
    ensures r.Ok? ==> r.value.username == username && r.value.id in db.rows && db.rows[r.value.id] == r.value
    ensures r.Err? <==> !UsernameTaken(db, username)
    ensures r.Err? ==> r.error == RecordNotFound
  {
    FirstWhere(db, (u: User) => u.username == username)
  }

  function GetUserByEmail(db: UserDb, email: string): (r: Result<User>)
    requires Valid(db)
    ensures r.Ok? ==> r.value.email == email && r.value.id in db.rows && db.rows[r.value.id] == r.value
    ensures r.Err? <==> !EmailTaken(db, email)
    ensures r.Err? ==> r.error == RecordNotFound
  {
    FirstWhere(db, (u: User) => u.email == email)
  }

  /** Every user, in increasing id order. */
  method ListUser(db: UserDb) returns (users: seq<User>)
    requires Valid(db)
    ensures forall i :: 0 <= i < |users| ==> users[i].id in db.rows && db.rows[users[i].id] == users[i]
    ensures forall k :: k in db.rows ==> exists i :: 0 <= i < |users| && users[i].id == k
    ensures forall i, j :: 0 <= i < j < |users| ==> users[i].id < users[j].id
    ensures |users| == |db.rows|
  {
    var keys;
    keys, users := Table.List(db.rows, db.nextId);
    forall k | k in db.rows
      ensures exists i :: 0 <= i < |users| && users[i].id == k
    {
      var i :| 0 <= i < |keys| && keys[i] == k;
      assert users[i].id == k;
    }
    Table.KeysCount(keys, db.rows);
  }

  /** Some user other than `id` already has this e-mail. */
  predicate EmailTakenByOther(db: UserDb, id: nat, email: string)
  {
    exists k :: k in db.rows && k != id && db.rows[k].email == email
  }

  /**
   UpdateUser with the missing-id case reporting not-found. Only the name and
   e-mail can change; a clash with another user's e-mail aborts the save.
   */
  function UpdateUser(db: UserDb, id: nat, name: string, email: string, now: int): (r: Result<(UserDb, User)>)
    requires Valid(db)
    ensures id !in db.rows ==> r == Err(RecordNotFound)
    ensures id in db.rows ==> (r.Err? <==> EmailTakenByOther(db, id, Keep(email, db.rows[id].email)))
    ensures r.Err? ==> r.error in {RecordNotFound, DuplicateKey}
    ensures r.Ok? ==> Valid(r.value.0)
    ensures r.Ok? ==> var (db', u) := r.value; var old_ := db.rows[id];
      && id in db.rows && u.id == id
      && db'.rows == db.rows[id := u] && db'.nextId == db.nextId
      && u.username == old_.username && u.hashedPassword == old_.hashedPassword
      && u.createdAt == old_.createdAt && u.updatedAt == now
      && (name == "" ==> u.name == old_.name) && (name != "" ==> u.name == name)
      && (email == "" ==> u.email == old_.email) && (email != "" ==> u.email == email)
  {
    if id !in db.rows then Err(RecordNotFound)
    else
      var u := db.rows[id];
      var u' := u.(name := Keep(name, u.name), email := Keep(email, u.email), updatedAt := now);
      if EmailTakenByOther(db, id, u'.email) then Err(DuplicateKey)
      else Ok((db.(rows := db.rows[id := u']), u'))
  }

  /**
   UpdateUser as the source writes it: `Find` on a missing id is no error and
   leaves the zero user, whose zero id makes `Save` insert it as a new row.
   */
  function UpdateUserAsWritten(db: UserDb, id: nat, name: string, email: string, now: int): (r: Result<(UserDb, User)>)
    requires Valid(db)
    ensures id in db.rows ==> r == UpdateUser(db, id, name, email, now)
    ensures r.Ok? ==> Valid(r.value.0)
    ensures id !in db.rows ==> (r.Err? <==> UsernameTaken(db, "") || EmailTaken(db, email))
    ensures id !in db.rows && r.Ok? ==> var (db', u) := r.value;
      && u.id == db.nextId && u.username == "" && u.hashedPassword == "" && db'.rows == db.rows[u.id := u]
      && u.name == name && u.email == email
  {
    if id in db.rows then UpdateUser(db, id, name, email, now)
    else Insert(db, User(0, "", email, name, "", 0, 0), now)
  }

  /** Updating a missing id on an empty table creates a user instead of failing. */
  lemma UpdateMissingUserInserts()
    ensures var r := UpdateUserAsWritten(Empty(), 7, "Ann", "ann@example.com", 0);
      r.Ok? && 7 !in r.value.0.rows && r.value.0.rows.Keys == {1}
  {
    var r := UpdateUserAsWritten(Empty(), 7, "Ann", "ann@example.com", 0);
    assert !UsernameTaken(Empty(), "");
    assert !EmailTaken(Empty(), "ann@example.com");
    assert r.Ok?;
  }

  /**
   Change the password: a differing confirmation is a silent success that
   changes nothing; otherwise look the user up, check the current password,
   hash the new one and save it.
   */
  function UpdatePassword(db: UserDb, h: Hasher.PasswordHasher, id: nat, currentPassword: string,
                          newPassword: string, confirmPassword: string, now: int): (r: Result<UserDb>)
    requires Valid(db)
    ensures newPassword != confirmPassword ==> r == Ok(db)
    ensures newPassword == confirmPassword && id !in db.rows ==> r == Err(RecordNotFound)
    ensures newPassword == confirmPassword && id in db.rows &&
            Hasher.Compare(h, db.rows[id].hashedPassword, currentPassword).Some?
      ==> r == Err(Hasher.Compare(h, db.rows[id].hashedPassword, currentPassword).value)
    ensures newPassword == confirmPassword && id in db.rows &&
            Hasher.Compare(h, db.rows[id].hashedPassword, currentPassword).None?
      ==> (r.Ok? <==> h.hash(newPassword).Some?) && (r.Err? ==> r.error == HashFailure)
    ensures r.Err? ==> r.error in {RecordNotFound, MalformedHash, HashMismatch, HashFailure}
    ensures r.Ok? ==> Valid(r.value)
    ensures r.Ok? && newPassword == confirmPassword ==>
      && id in db.rows && id in r.value.rows
      && r.value.rows == db.rows[id := r.value.rows[id]] && r.value.nextId == db.nextId
      && h.hash(newPassword) == Some(r.value.rows[id].hashedPassword)
      && r.value.rows[id] == db.rows[id].(hashedPassword := r.value.rows[id].hashedPassword, updatedAt := now)
  {
    if newPassword != confirmPassword then Ok(db)
    else if id !in db.rows then Err(RecordNotFound)
    else
      var u := db.rows[id];
      match Hasher.Compare(h, u.hashedPassword, currentPassword)
      case Some(e) => Err(e)
      case None =>
        match h.hash(newPassword)
        case None => Err(HashFailure)
        case Some(hashed) => Ok(db.(rows := db.rows[id := u.(hashedPassword := hashed, updatedAt := now)]))
  }

  /** Delete by id; deleting a missing id is not an error. */
  function DeleteUser(db: UserDb, id: nat): (r: Result<UserDb>)
    requires Valid(db)
    ensures r.Ok? && Valid(r.value)
    ensures r.value.rows.Keys == db.rows.Keys - {id}
    ensures forall k :: k in r.value.rows ==> r.value.rows[k] == db.rows[k]
  {
    Ok(db.(rows := db.rows - {id}))
  }

  /** A created user is found again by id, by username and by e-mail. */
  lemma CreateThenGet(db: UserDb, h: Hasher.PasswordHasher, username: string, email: string,
                      name: string, password: string, now: int)
    requires Valid(db)
    requires CreateUser(db, h, username, email, name, password, now).Ok?
    ensures var (db', u) := CreateUser(db, h, username, email, name, password, now).value;
      && GetUserById(db', u.id) == Ok(u)
      && GetUserByUsername(db', username) == Ok(u)
      && GetUserByEmail(db', email) == Ok(u)
  {
    var (db', u) := CreateUser(db, h, username, email, name, password, now).value;
    var byName := GetUserByUsername(db', username);
    assert db'.rows[u.id].username == username;
    assert byName.value.id == u.id;
    var byEmail := GetUserByEmail(db', email);
    assert db'.rows[u.id].email == email;
    assert byEmail.value.id == u.id;
  }

  /** After a delete the id is no longer found. */
  lemma DeleteThenGet(db: UserDb, id: nat)
    requires Valid(db)
    ensures GetUserById(DeleteUser(db, id).value, id) == Err(RecordNotFound)
  {
  }

  /** After a successful change, the stored hash accepts the new password. */
  lemma UpdatePasswordThenMatches(db: UserDb, h: Hasher.PasswordHasher, id: nat, currentPassword: string,
                                  newPassword: string, now: int)
    requires Valid(db) && Hasher.Consistent(h)
    requires UpdatePassword(db, h, id, currentPassword, newPassword, newPassword, now).Ok?
    ensures var db' := UpdatePassword(db, h, id, currentPassword, newPassword, newPassword, now).value;
      id in db'.rows && Hasher.Compare(h, db'.rows[id].hashedPassword, newPassword) == None
  {
    Hasher.GeneratedHashAccepted(h, newPassword);
  }
}

=== FILE: validator.dfy ===
/**
 The two input validators of the registration form: the password strength
 rule and the e-mail grammar.

 Strings are sequences of Unicode scalar values, so `|s|` counts runes the
 way Go's utf8.RuneCountInString does. The Unicode category tests that the
 password rule relies on (unicode.IsNumber, IsUpper, IsLower, IsPunct,
 IsSymbol) are taken as a parameter; `Ascii()` gives their values on ASCII.
 */
module Validator {
  import opened Common
  import Text

  /** Go's Unicode category predicates, as used by the password rule. */
  datatype CharClasses = CharClasses(
    isNumber: char -> bool,
    isUpper: char -> bool,
    isLower: char -> bool,
    isPunct: char -> bool,
    isSymbol: char -> bool)

  /** The class a character is credited to by the password loop's switch. */
  datatype Kind = Number | Upper | Lower | Special | Plain

  const MinPasswordLength: nat := 8

  /** The first case of the switch that matches `c`; later cases are not tried. */
  function Classify(cc: CharClasses, c: char): Kind
  {
    if cc.isNumber(c) then Number
    else if cc.isUpper(c) then Upper
    else if cc.isLower(c) then Lower
    else if cc.isPunct(c) || cc.isSymbol(c) then Special
    else Plain
  }

  /** Some character of `pw` is credited to class `k`. */
  predicate HasKind(cc: CharClasses, pw: string, k: Kind)
  {
    exists i :: 0 <= i < |pw| && Classify(cc, pw[i]) == k
  }

  /** The strength rule: at least eight runes and one rune of each of the four classes. */
  predicate StrongPassword(cc: CharClasses, pw: string)
  {
    && |pw| >= MinPasswordLength
    && HasKind(cc, pw, Number)
    && HasKind(cc, pw, Upper)
    && HasKind(cc, pw, Lower)
    && HasKind(cc, pw, Special)
  }

  /** The password check as the source writes it: a length guard, then one pass setting four flags. */
  method IsValidPassword(cc: CharClasses, password: string) returns (ok: bool)
    ensures ok <==> StrongPassword(cc, password)
    ensures |password| < MinPasswordLength ==> !ok
  {
    if |password| < MinPasswordLength {
      return false;
    }
    var hasNumber, hasUpper, hasLower, hasSpecial := false, false, false, false;
    for n := 0 to |password|
      invariant hasNumber <==> HasKind(cc, password[..n], Number)
      invariant hasUpper <==> HasKind(cc, password[..n], Upper)
      invariant hasLower <==> HasKind(cc, password[..n], Lower)
      invariant hasSpecial <==> HasKind(cc, password[..n], Special)
    {
      PrefixKinds(cc, password, n);
      match Classify(cc, password[n])
      case Number => hasNumber := true;
      case Upper => hasUpper := true;
      case Lower => hasLower := true;
      case Special => hasSpecial := true;
      case Plain =>
    }
    assert password[..|password|] == password;
    ok := hasNumber && hasUpper && hasLower && hasSpecial;
  }

  /** Extending a prefix by one rune adds exactly that rune's class. */
  lemma PrefixKinds(cc: CharClasses, pw: string, n: nat)
    requires n < |pw|
    ensures forall k :: HasKind(cc, pw[..n + 1], k) <==> HasKind(cc, pw[..n], k) || Classify(cc, pw[n]) == k
  {
    forall k
      ensures HasKind(cc, pw[..n + 1], k) <==> HasKind(cc, pw[..n], k) || Classify(cc, pw[n]) == k
    {
      if HasKind(cc, pw[..n + 1], k) {
        var i :| 0 <= i < n + 1 && Classify(cc, pw[..n + 1][i]) == k;
        if i < n {
          assert pw[..n][i] == pw[..n + 1][i];
        }
      }
      if HasKind(cc, pw[..n], k) {
        var i :| 0 <= i < n && Classify(cc, pw[..n][i]) == k;
        assert pw[..n + 1][i] == pw[..n][i];
      }
      if Classify(cc, pw[n]) == k {
        assert pw[..n + 1][n] == pw[n];
      }
    }
  }

  /** A rune is credited as upper-case exactly when it is upper-case and not a number, and so on down the switch. */
  lemma ClassifyFirstMatch(cc: CharClasses, c: char)
    ensures Classify(cc, c) == Number <==> cc.isNumber(c)
    ensures Classify(cc, c) == Upper <==> !cc.isNumber(c) && cc.isUpper(c)
    ensures Classify(cc, c) == Lower <==> !cc.isNumber(c) && !cc.isUpper(c) && cc.isLower(c)
    ensures Classify(cc, c) == Special <==>
      !cc.isNumber(c) && !cc.isUpper(c) && !cc.isLower(c) && (cc.isPunct(c) || cc.isSymbol(c))
  {
  }

  /** Appending runes to a strong password keeps it strong. */
  lemma {:induction false} StrongPasswordExtends(cc: CharClasses, pw: string, more: string)
    requires StrongPassword(cc, pw)
    ensures StrongPassword(cc, pw + more)
  {
    forall k | HasKind(cc, pw, k)
      ensures HasKind(cc, pw + more, k)
    {
      var i :| 0 <= i < |pw| && Classify(cc, pw[i]) == k;
      assert (pw + more)[i] == pw[i];
    }
  }

  /** Length is measured in runes: six runes are too few even when they take nine bytes. */
  lemma LengthCountsRunes(cc: CharClasses)
    ensures Text.Utf8Length("Aé1!éé") == 9
    ensures !StrongPassword(cc, "Aé1!éé")
  {
  }

  /** Go's category predicates restricted to ASCII. */
  function Ascii(): CharClasses
  {
    CharClasses(
      c => '0' <= c <= '9',
      c => 'A' <= c <= 'Z',
      c => 'a' <= c <= 'z',
      c => c in {'!', '"', '#', '%', '&', '\'', '(', ')', '*', ',', '-', '.', '/', ':', ';', '?', '@', '[', '\\', ']', '_', '{', '}'},
      c => c in {'$', '+', '<', '=', '>', '^', '`', '|', '~'})
  }

  /** The special-rune requirement is enforced: a password with the other three classes is refused. */
  lemma SpecialRuneRequired()
    ensures !StrongPassword(Ascii(), "Password1")
    ensures StrongPassword(Ascii(), "Passw0rd!")
  {
    var cc := Ascii();
    var weak := "Password1";
    forall i | 0 <= i < |weak|
      ensures Classify(cc, weak[i]) != Special
    {
    }
    var good := "Passw0rd!";
    assert Classify(cc, good[5]) == Number;
    assert Classify(cc, good[0]) == Upper;
    assert Classify(cc, good[1]) == Lower;
    assert Classify(cc, good[8]) == Special;
  }

  // ---------------------------------------------------------------- e-mail

  predicate IsAlnum(c: char)
  {
    ('a' <= c <= 'z') || ('A' <= c <= 'Z') || ('0' <= c <= '9')
  }

  /** The character set of the part before `@`. */
  predicate IsLocalChar(c: char)
  {
    IsAlnum(c) || c in {'.', '!', '#', '$', '%', '&', '\'', '*', '+', '/', '=', '?', '^', '_', '`', '{', '|', '}', '~', '-'}
  }

  predicate IsLabelChar(c: char)
  {
    IsAlnum(c) || c == '-'
  }

  predicate ValidLocal(local: string)
  {
    |local| >= 1 && forall i :: 0 <= i < |local| ==> IsLocalChar(local[i])
  }

  /** A domain label: 1 to 63 alphanumerics and hyphens, alphanumeric at both ends. */
  predicate ValidLabel(l: string)
  {
    && 1 <= |l| <= 63
    && IsAlnum(l[0])
    && IsAlnum(l[|l| - 1])
    && forall i :: 0 <= i < |l| ==> IsLabelChar(l[i])
  }

  predicate ValidLabels(labels: seq<string>)
  {
    |labels| >= 1 && forall i :: 0 <= i < |labels| ==> ValidLabel(labels[i])
  }

  /**
   The e-mail check: a valid local part up to the first `@`, then dot-separated
   valid labels. An accepted address is one the grammar produces, and it holds
   exactly one `@`; `EmailComplete` gives the converse.
   */
  function IsValidEmail(e: string): (ok: bool)
    ensures ok ==> exists local, labels :: ValidLocal(local) && ValidLabels(labels) && e == EmailOf(local, labels)
    ensures ok ==> Text.Count(e, '@') == 1
  {
    match Text.IndexOf(e, '@')
    case None => false
    case Some(at) =>
      if ValidLocal(e[..at]) && ValidLabels(Text.Split(e[at + 1..], '.')) then
        AcceptedShape(e, at);
        true
      else false
  }

  /** The address the grammar of the source's regular expression produces from its parts. */
  function EmailOf(local: string, labels: seq<string>): string
    requires |labels| >= 1
  {
    local + ['@'] + Text.Join(labels, '.')
  }

  /** Every address the grammar produces is accepted. */
  lemma EmailComplete(local: string, labels: seq<string>)
    requires ValidLocal(local)
    requires ValidLabels(labels)
    ensures IsValidEmail(EmailOf(local, labels))
  {
    var domain := Text.Join(labels, '.');
    var e := EmailOf(local, labels);
    assert '@' !in local;
    Text.IndexAfterPrefix(local, '@', domain);
    assert e[..|local|] == local;
    assert e[|local| + 1..] == domain;
    assert forall i :: 0 <= i < |labels| ==> '.' !in labels[i];
    Text.SplitJoin(labels, '.');
  }

  /** An address split at its first `@` into a valid local part and valid labels is the grammar's, with one `@`. */
  lemma AcceptedShape(e: string, at: nat)
    requires Text.IndexOf(e, '@') == Some(at)
    requires ValidLocal(e[..at]) && ValidLabels(Text.Split(e[at + 1..], '.'))
    ensures e == EmailOf(e[..at], Text.Split(e[at + 1..], '.'))
    ensures Text.Count(e, '@') == 1
  {
    var local := e[..at];
    var labels := Text.Split(e[at + 1..], '.');
    Text.JoinSplit(e[at + 1..], '.');
    assert e == EmailOf(local, labels);
    Text.CountAbsent(local, '@');
    assert forall i :: 0 <= i < |labels| ==> '@' !in labels[i];
    Text.JoinAbsent(labels, '.', '@');
    Text.CountAbsent(Text.Join(labels, '.'), '@');
    Text.CountAppend(local + ['@'], Text.Join(labels, '.'), '@');
    Text.CountAppend(local, ['@'], '@');
  }

  /** A domain without a dot is accepted. */
  lemma DotlessDomainAccepted()
    ensures IsValidEmail("a@localhost")
  {
    var labels := ["localhost"];
    assert EmailOf("a", labels) == "a@localhost" by {
      assert Text.Join(labels, '.') == "localhost";
    }
    assert ValidLabel(labels[0]);
    EmailComplete("a", labels);
  }

  /** An empty label, as between two adjacent dots, is refused. */
  lemma EmptyLabelRefused()
    ensures !IsValidEmail("a@b..c")
  {
    var bad := "a@b..c";
    assert Text.IndexOf(bad, '@') == Some(1);
    assert bad[2..] == "b..c";
    var d := "b..c";
    assert Text.IndexOf(d, '.') == Some(1);
    assert d[..1] == "b";
    assert d[2..] == ".c";
    assert Text.IndexOf(".c", '.') == Some(0);
    assert Text.Split(d, '.') == ["b"] + Text.Split(".c", '.');
    assert Text.Split(".c", '.')[0] == "";
    var labels := Text.Split(bad[2..], '.');
    assert labels[1] == "";
    assert !ValidLabel(labels[1]);
  }
}
